=== FILE: README.md ===
# BlogGetWay core, modelled in Dafny

BlogGetWay is a client-side blogging admin console. Posts, site settings and a
preview slot live in browser local storage, and a login form guards the admin
area with a lockout after repeated failures. This project models the parts of
it that are sequential logic rather than rendering:

- **The login lockout guard** (`services/auth.ts`), as a pure transition system
  `(store, now, input) -> (store', result)`. The store holds the session flag,
  the failed-attempt count and the lockout timestamp. The clock is a parameter.
  The lemmas prove the guard's invariant over every reachable store: the count
  never exceeds 5, and a lockout is stored exactly when the count is 5.
- **The storage service** (`services/storage.ts`): seeding posts on first read,
  lookup, upsert and delete by id, settings merged over defaults, and the
  preview slot. Local storage is a record of optional typed values; the JSON
  text is abstracted away.
- **The pure reducers and selectors inside the pages**: settings editing,
  post editing (gallery, AI-result routing, research source list), search
  filtering and the circular image slider, the login countdown and messages,
  dashboard counters and chart, and the layout's fallbacks.

Module per source file: `Auth`, `Storage`, `SettingsPage`, `PostEditor`,
`PublicBlog`, `PostPreview`, `AdminLogin`, `Dashboard`, `Layout`. Shared
helpers: `Wrappers` (Option), `Types` (the records of `types.ts`), `PostFields`
and `SettingsFields` (property keys, so that "only this property changes" can be
stated), `Seqs` (filter, filter by index, slice), `Text` (lower-casing,
`includes`, `startsWith`), `Decimal` (number to text and back) and `Gallery`
(the slider shared by two pages).

Inputs the code takes from the environment are parameters: `Date.now()` (`now`),
`uuidv4()` (`uuid`), `Math.random()` draws (`change`, `bump`), file reads (the
data URLs), AI responses (`result`, `generated`, research text and sources), and
the module-load time of the seed posts (`loadedAt`).

Stored values are kept typed. The code reads the failure count with `parseInt`,
which yields `NaN` for malformed stored text; such text cannot occur in the
model (see Left out).

## Model

| member | source | states |
|---|---|---|
| Auth.IsAuthenticated | services/auth.ts:5-7 | authenticated exactly when the stored flag is the text "true"; any other stored text, or none, is not a session |
| Auth.GetFailedAttempts | services/auth.ts:56-58 | a missing count reads as 0; a stored count reads as itself |
| Auth.SessionChanges | services/auth.ts:5-28 | logout always ends the session; a login leaves it open iff it was open or the password is right while the guard is unlocked; status checks and resets never change it |
| Auth.GetLockoutStatus | services/auth.ts:31-43 | no stored lockout: not locked, remaining 0, store unchanged; within 900000 ms of the lockout: locked with remaining = t + 900000 − now > 0, store unchanged; afterwards: not locked, and both lockout time and count are removed |
| Auth.RecordFailedAttempt | services/auth.ts:45-54 | the count (absent read as 0) grows by exactly 1 and is stored; the lockout time is set to now exactly when the new count is ≥ 5; the session flag is untouched |
| Auth.ResetAttempts | services/auth.ts:60-63 | count reads 0 and no lockout remains; session flag untouched |
| Auth.Logout | services/auth.ts:26-28 | afterwards not authenticated; count and lockout untouched |
| Auth.Login | services/auth.ts:9-24 | locked: false and store unchanged, password not consulted; right password while open: true, flag "true", both counters cleared; wrong password while open: false, count of the post-expiry store + 1, lockout present iff count ≥ 5; ok iff open and password correct |
| Auth.StepPreservesConsistent | services/auth.ts:9-63 | every operation (login, logout, status check, reset) keeps: 0 ≤ count ≤ 5 and lockout stored iff count = 5 |
| Auth.RunPreservesConsistent | services/auth.ts:9-63 | any sequence of operations from a consistent store ends in a consistent store |
| Auth.ReachableFromEmpty | services/auth.ts:9-63 | starting from an empty store, the count never exceeds 5 and a lockout is stored exactly when it is 5 |
| Auth.StatusIdempotent | services/auth.ts:31-43 | checking the status twice at the same instant gives the same answer and the same store |
| Auth.RemainingDecreases | services/auth.ts:34-37 | while locked, a later check reports strictly less remaining time |
| Auth.LockedRejectsCorrectPassword | services/auth.ts:11-12 | while locked even the right password fails, and neither the count nor the session flag changes |
| Auth.FewFailuresStayOpen | services/auth.ts:9-24 | in a consistent store with fewer than 5 failures the guard is open and the right password logs in and resets the count to 0 |
| Auth.WrongAttemptsCount | services/auth.ts:45-54 | from an empty store, k < 5 wrong passwords leave count k and no lockout |
| Auth.LockoutScenario | services/auth.ts:1-63 | five wrong passwords lock for exactly 900000 ms; the right password fails during the lockout; 15 min + 1 s later it succeeds and the count is 0 |
| Storage.GetPosts | services/storage.ts:76-83 | an empty store is seeded with the two initial posts, which are returned; a stored list (even empty) is returned unchanged; afterwards the store holds the returned list |
| Storage.FindIndex | services/storage.ts:92 | the first index whose post has the id, or none when no post has it |
| Storage.GetPost | services/storage.ts:85-88 | nothing iff no post has the id; otherwise the first post with the id |
| Storage.SavePost | services/storage.ts:90-99 | a new id is appended at the end; an existing id replaces its first occurrence in place, keeping the length and every other position; settings and preview untouched |
| Storage.SaveThenGet | services/storage.ts:85-99 | after saving a post, looking up its id returns that post |
| Storage.DeletePost | services/storage.ts:101-105 | exactly the posts with another id remain, each as often as before, in their original order |
| Storage.DeleteIdempotent | services/storage.ts:101-105 | deleting the same id twice equals deleting it once |
| Storage.GetSettings | services/storage.ts:107-119 | nothing stored: the defaults; otherwise each property is the stored value when present and the default when missing |
| Storage.EmptyStoredLinksKept | services/storage.ts:116-117 | a stored empty footer list stays empty; only a missing list falls back to the default list |
| Storage.SaveSettings | services/storage.ts:121-123 | every property is stored with the saved value; posts and preview untouched |
| Storage.SaveSettingsRoundTrip | services/storage.ts:107-123 | settings read back after a save equal the saved settings |
| Storage.SavePreviewPost | services/storage.ts:126-128 | the preview read back is the saved post; posts and settings untouched |
| Storage.GetPreviewPost | services/storage.ts:130-133 | nothing when no preview is stored, otherwise the stored post |
| SettingsPage.HandleChange | pages/Settings.tsx:13-15 | the chosen property takes the new value and every other property keeps its value |
| SettingsPage.HandleSocialChange | pages/Settings.tsx:17-25 | the chosen network's link changes; the other three networks and all other properties keep their values |
| SettingsPage.HandleLinkChange | pages/Settings.tsx:28-32 | for an index in range only that field of that link changes; length, its other field, the other links and the other properties are kept |
| SettingsPage.AddLink | pages/Settings.tsx:34-37 | the section grows by one, ends with {New Link, #}, and its earlier links are unchanged |
| SettingsPage.RemoveLink | pages/Settings.tsx:39-42 | an index in range removes exactly that link, keeping order (length − 1); an index out of range changes nothing |
| SettingsPage.SectionsIndependent | pages/Settings.tsx:28-42 | adding, removing or editing a link in one footer section leaves the other section unchanged |
| SettingsPage.AddThenRemoveLast | pages/Settings.tsx:34-42 | adding a link and removing the last link restores the settings |
| PostEditor.OpenEditor | pages/PostEditor.tsx:13-48 | a new post is a draft by 'Admin' with 0 views, an empty gallery and tags, empty title, slug, content, excerpt, cover, category and publish date, no SEO fields, and the generated id; with a route id, the stored post with that id, or the blank post when none has it |
| PostEditor.HandleChange | pages/PostEditor.tsx:63-65 | the chosen property takes the new value and every other property keeps its value |
| PostEditor.AddGalleryImage | pages/PostEditor.tsx:159-162 | the gallery (missing read as empty) gets the image appended at the end; nothing else changes |
| PostEditor.AddGalleryImages | pages/PostEditor.tsx:153-167 | each loaded file appends exactly one image, in load order; nothing else changes |
| PostEditor.RemoveGalleryImage | pages/PostEditor.tsx:169-174 | an index in range removes exactly that image, keeping order; otherwise the gallery is unchanged; nothing else changes |
| PostEditor.ApplyAiResult | pages/PostEditor.tsx:95-101 | summarize writes only the excerpt; research appends "\n\n" + result to the content; fix and expand replace the content; no other property changes |
| PostEditor.SourceTitle | pages/PostEditor.tsx:86 | never empty; the source's title when present and non-empty; 'Link' when the source, its title or the title text is missing |
| PostEditor.SourceLine | pages/PostEditor.tsx:86 | the line starts with "- [", the source title and "](", ends with the uri (the text "undefined" when missing) and ")", and holds nothing else |
| PostEditor.ResearchResult | pages/PostEditor.tsx:86 | starts with the bold heading naming the prompt and the findings, and ends with "\n\n*Sources:*\n" and the source list, with nothing between or after; with no sources it ends with the bare *Sources:* line |
| PostEditor.SourcesOnePerLine | pages/PostEditor.tsx:86 | split at its line breaks, the list of single-line sources has exactly one line per source, and line k is the bullet of source k |
| PostEditor.LinesOfJoin | pages/PostEditor.tsx:86 | joining lines without line breaks by "\n" and splitting the result gives the lines back |
| PostEditor.OneSourcePerLine | pages/PostEditor.tsx:86 | n single-line sources render with exactly n − 1 line breaks: one source per line |
| PostEditor.UrlBoxValue | pages/PostEditor.tsx:389 | a non-empty "data:" cover shows an empty box; any other cover shows itself |
| PostEditor.GenerateCoverImage | pages/PostEditor.tsx:111-126 | without a title nothing changes; otherwise only the cover becomes the generated image |
| PostEditor.SaveThenReopen | pages/PostEditor.tsx:42-70 | saving a post and reopening the editor on its id shows the saved post |
| PublicBlog.VisiblePosts | pages/PublicBlog.tsx:12-15 | the `|| true` status filter keeps every post |
| PublicBlog.FilteredPosts | pages/PublicBlog.tsx:21-24 | an order-preserving subsequence in which a post occurs as often as in the input if its lowercased title or excerpt contains the lowercased term, and not at all otherwise; an empty term keeps all |
| PublicBlog.SelectPost | pages/PublicBlog.tsx:17-19 | selecting a different post resets the slide to 0; the slide stays inside the gallery |
| PublicBlog.NextSlide | pages/PublicBlog.tsx:26-29 | the slide becomes (i + 1) mod n in the selected post's gallery, for every index: one image forward, wrapping from the last to the first; no gallery, no change |
| PublicBlog.PrevSlide | pages/PublicBlog.tsx:31-34 | the slide becomes (i − 1 + n) mod n in the selected post's gallery, for every index: one image back, wrapping from the first to the last; no gallery, no change |
| PublicBlog.FeaturedPosts | pages/PublicBlog.tsx:143 | the first min(3, n) posts |
| Gallery.CoverOrSlider | pages/PublicBlog.tsx:69-80 | cover and slider are never both shown; the cover is shown iff it is set and the gallery is empty |
| Gallery.NextSlide | pages/PostPreview.tsx:28-31 | inside [0, n) and differing from i + 1 by a whole number of laps of n, so (i + 1) mod n for every index, including a stale one past the end; from n − 1 it wraps to 0; no gallery, no change |
| Gallery.PrevSlide | pages/PostPreview.tsx:33-36 | inside [0, n) and differing from i − 1 + n by a whole number of laps of n, so (i − 1 + n) mod n for every index, including a stale one past the end; from 0 it wraps to n − 1; no gallery, no change |
| Gallery.PrevUndoesNext | pages/PublicBlog.tsx:26-34 | previous undoes next and next undoes previous for every index in the gallery |
| PostPreview.Mount | pages/PostPreview.tsx:10-15 | the stored preview, if any, on the first image |
| PostPreview.PreviewShowsEditorPost | pages/PostPreview.tsx:12-15 | a preview opened after the editor stored a post shows that post |
| PostPreview.OnStorageEventAsWritten | pages/PostPreview.tsx:18-22 | only a non-null value under 'bloggetway_preview_post' replaces the post; the slide index is kept |
| PostPreview.StaleIndexAfterPreviewUpdate | pages/PostPreview.tsx:18-22 | a concrete update after which the kept slide index points past the new gallery |
| PostPreview.OnStorageEvent | pages/PostPreview.tsx:18-22 | only a non-null value under 'bloggetway_preview_post' replaces the post, on its first image, so the slide stays inside the gallery |
| PostPreview.NextSlide | pages/PostPreview.tsx:28-31 | the slide becomes (i + 1) mod n for every index, a stale one past the end included: one image forward, wrapping from the last to the first; no post or gallery, no change |
| PostPreview.PrevSlide | pages/PostPreview.tsx:33-36 | the slide becomes (i − 1 + n) mod n for every index, a stale one past the end included: one image back, wrapping from the first to the last; no post or gallery, no change |
| PostPreview.DisplayTitle | pages/PostPreview.tsx:66 | never empty; the title when set, 'Untitled Post' when the title is empty |
| PostPreview.NewPostPreviewIsUntitled | pages/PostPreview.tsx:66 | previewing a new post before it has a title shows 'Untitled Post' |
| AdminLogin.CeilSeconds | pages/AdminLogin.tsx:30 | the smallest whole number of seconds covering the milliseconds |
| AdminLogin.FormatTime | pages/AdminLogin.tsx:29-34 | "m:ss": minutes without a leading zero, a colon, two digits below 60, and minutes × 60 + seconds = ⌈ms / 1000⌉ |
| AdminLogin.FullLockoutReads | pages/AdminLogin.tsx:29-34 | 900000 ms reads "15:00" |
| AdminLogin.LastMillisecondReads | pages/AdminLogin.tsx:29-34 | 1 ms reads "0:01" |
| AdminLogin.ErrorText | pages/AdminLogin.tsx:48-50 | empty only for no error; the suspension sentence; or "Invalid password. ", the count, " attempts remaining.", where the count reads back as the attempts left |
| AdminLogin.HandleLogin | pages/AdminLogin.tsx:36-54 | nothing while the page shows a lockout; navigates iff the login succeeds; a failure clears the password and shows the suspension message exactly when the page switches to the lockout view, which then carries the guard's current status; a failure that leaves the page open shows 5 minus the stored count as the attempts left |
| AdminLogin.WrongPasswordFeedback | pages/AdminLogin.tsx:43-51 | on a consistent open guard the fifth failure shows the suspension and a 900000 ms lockout; earlier failures show 1 to 4 attempts remaining |
| AdminLogin.StalePageLearnsOfLockout | pages/AdminLogin.tsx:43-48 | a page not yet showing an active lockout cannot log in and switches to the suspension view |
| AdminLogin.PollAsWritten | pages/AdminLogin.tsx:12-27 | the interval runs the first render's handler, whose captured lockout is unlocked: the page takes the guard's current status, but the error is never cleared |
| AdminLogin.SuspensionOutlivesLockout | pages/AdminLogin.tsx:12-27 | after five failures and the full lockout, the page as written shows the form again with the suspension message still up, while the intended poll clears it |
| AdminLogin.Poll | pages/AdminLogin.tsx:21-27 | the page takes the guard's current status, and the error is cleared exactly when a shown lockout has ended |
| Dashboard.PublishedCount | pages/Dashboard.tsx:35 | equals the reference count of published posts; at most the number of posts, and 0 exactly when none is published |
| Dashboard.DraftCount | pages/Dashboard.tsx:36 | equals the reference count of drafts; at most the number of posts, and 0 exactly when none is a draft |
| Dashboard.FilterMatchesCount | pages/Dashboard.tsx:35-36 | filtering the posts by a status test keeps exactly as many posts as the positions holding that status |
| Dashboard.CountsPartition | pages/Dashboard.tsx:35-36 | published + draft + scheduled = number of posts, so published + draft ≤ number of posts |
| Dashboard.Warmup | pages/Dashboard.tsx:16 | the counter jumps to 12 without adding session views |
| Dashboard.Tick | pages/Dashboard.tsx:19-27 | the counter becomes max(0, users + change): it is ≥ 0 and ≥ users + change, and equals one of them; a rise is added to session views exactly, a fall adds nothing |
| Dashboard.TicksAccumulate | pages/Dashboard.tsx:18-28 | over any run of ticks the counter stays ≥ 0, session views never decrease, and they grow at least as much as the counter |
| Dashboard.InitialChart | pages/Dashboard.tsx:43-49 | six points labelled 4·i hours, all with 0 views |
| Dashboard.InitialChartLabels | pages/Dashboard.tsx:46 | the first label is "0:00" and the last "20:00" |
| Dashboard.ChartTick | pages/Dashboard.tsx:52-58 | only the last point changes, keeping its label, its views rising by exactly `bump` (0 to 4) |
| Dashboard.ChartTicksStable | pages/Dashboard.tsx:51-59 | over any run of ticks the chart keeps its length and labels, all but the last point are unchanged, and the last never loses views |
| Dashboard.RecentPosts | pages/Dashboard.tsx:206 | the first min(5, n) posts |
| Layout.LayoutMode | components/Layout.tsx:79-83 | '/admin/login' is bare; any other path starting with '/admin' gets the admin layout; everything else is public |
| Layout.DisplaySiteName | components/Layout.tsx:134 | never empty; the configured name when set, 'BlogGetWay' otherwise |
| Layout.LogoSource | components/Layout.tsx:117-131 | the logo URL if set, else the favicon URL if set, else no image; never an empty source |
| Layout.ExploreLinksShown | components/Layout.tsx:312-322 | never empty; the configured links, or Home and Latest Articles when there are none |
| Layout.LegalLinksShown | components/Layout.tsx:329-339 | never empty; the configured links, or Privacy Policy and Terms of Service when there are none |
| Layout.FooterTextShown | components/Layout.tsx:358 | never empty; the configured text when set, 'All rights reserved.' when it is empty |
| Layout.AtMostOneActiveIn | components/Layout.tsx:141-149 | in any navigation with distinct targets, a link is highlighted iff its target is the path, so at most one is |
| Layout.AtMostOneActive | components/Layout.tsx:90-104 | the admin and public target lists are distinct, so for any path each navigation highlights at most one link |
| Layout.FreshSiteLayout | components/Layout.tsx:26 | with nothing stored the layout shows 'BlogGetWay', no logo image, the four default Explore links and 'All rights reserved.' |
| Layout.ClearedTextFallsBack | components/Layout.tsx:358 | settings saved with an empty name and footer text keep them empty in storage, and the layout shows 'BlogGetWay' and 'All rights reserved.' instead |

## Left out

- AI calls (`services/geminiService.ts`, `pages/ImageGen.tsx`, `pages/AIChat.tsx`, the awaited calls in `pages/PostEditor.tsx`): external SDK wrappers; their outputs are opaque string parameters. The editor's unused `aiPrompt || post.content` value has no effect and is not modelled.
- `pages/Contact.tsx`, `pages/Analytics.tsx`, `App.tsx`, `pages/PostList.tsx`, `pages/About.tsx`, `components/ErrorBoundary.tsx`: a network form post, random data with floating-point rates, and routing or static rendering.
- Browser I/O: FileReader, camera and canvas; favicon and AdSense DOM injection; `window.open`, `confirm`, `alert`; the `settingsUpdated` event (the Layout's re-read is `Storage.GetSettings`). An upload or photo ends in `HandleChange` on the cover, logo or favicon, which is modelled.
- JSON (de)serialisation and `parseInt`: stored values are typed options, so `NaN` from malformed stored text is not modelled.
- Cross-tab concurrent writes to local storage; React scheduling, batching and StrictMode double calls, including the state update nested in an updater (`pages/Dashboard.tsx:24`).
- `toLowerCase` is modelled on ASCII letters only.
- Storage.SavePost: the seed list is a fresh value on every re-seed; in the source `getPosts` hands out the `INITIAL_POSTS` array itself on an unseeded store, `savePost` then pushes into or assigns through it, so a re-seed after the posts key is cleared would include that saved post. Aliasing of module constants is not modelled.
- Auth.Login: reads the clock once; the source reads `Date.now()` in the status check and again when recording the failure, a few milliseconds apart.
- Gallery.NextSlide: requires a non-empty gallery when one is present; JavaScript would compute `NaN` for an empty one, but the buttons exist only when the gallery has images.
- Gallery.PrevSlide: same requirement and reason as Gallery.NextSlide.
- PublicBlog.NextSlide: same requirement and reason as Gallery.NextSlide.
- PublicBlog.PrevSlide: same requirement and reason as Gallery.NextSlide.
- PostPreview.NextSlide: same requirement and reason as Gallery.NextSlide.
- PostPreview.PrevSlide: same requirement and reason as Gallery.NextSlide.
- SettingsPage.HandleLinkChange: requires an index in range; the page passes only indexes of rendered rows, and the JavaScript array holes an out-of-range write would create are not modelled.
- AdminLogin.FormatTime: requires a non-negative duration; the countdown renders only a remaining time the guard reported as positive.
- Dashboard.Tick: requires a change in −1..1, the range of `Math.floor(Math.random() * 3) - 1`.
- Dashboard.ChartTick: requires a non-empty chart; the source would throw on an empty one, but the interval runs only after six points are set.
- Layout.ExploreLinksShown: a missing list is not modelled apart from an empty one, because settings always come through `Storage.GetSettings`, which fills missing lists.
- Layout.LegalLinksShown: same reason as Layout.ExploreLinksShown.

## Findings

| source | as written | input that shows it | evidently intended | confidence | as-written member | corrected member |
|---|---|---|---|---|---|---|
| pages/PostPreview.tsx:18-22 | a storage event replaces the previewed post but keeps the slide index | viewing image 3 of 3 (index 2), the editor previews a version with one image: index 2 now points past the gallery and `galleryImages[2]` is undefined | reset the slide to the first image when the post changes, as pages/PublicBlog.tsx:17-19 does | medium; not executed | PostPreview.StaleIndexAfterPreviewUpdate | PostPreview.OnStorageEvent |
| pages/AdminLogin.tsx:12-27 | the interval is set up once with the first render's `updateLockoutStatus`, which reads that render's `lockout` (unlocked), so the expiry test never fires | five wrong passwords, then wait 15 minutes: the form returns but still reads "Access suspended due to too many failed attempts." | clear the error when the lockout the page shows has ended | medium; not executed | AdminLogin.SuspensionOutlivesLockout | AdminLogin.Poll |

=== FILE: admin_login.dfy ===
/** The decision logic of `pages/AdminLogin.tsx`: the countdown text, the
    submit handler and the messages it shows. The clock is a parameter. */
module AdminLogin {
  import Auth
  import Decimal
  import Text

  /** `Math.ceil(ms / 1000)`: whole seconds, rounded up. */
  function CeilSeconds(ms: int): (t: int)
    ensures (t - 1) * 1000 < ms <= t * 1000
  {
    -((-ms) / 1000)
  }

  /** `formatTime(ms)`: minutes, a colon, and two-digit seconds. */
  function FormatTime(ms: int): (r: string)
    requires ms >= 0
    ensures 4 <= |r| && r[|r| - 3] == ':'
    ensures Decimal.AllDigits(r[..|r| - 3]) && Decimal.AllDigits(r[|r| - 2..])
    ensures Decimal.ParseNat(r[|r| - 2..]) < 60
    ensures Decimal.ParseNat(r[..|r| - 3]) * 60 + Decimal.ParseNat(r[|r| - 2..]) == CeilSeconds(ms)
    ensures |r| > 4 ==> r[0] != '0'
  {
    var total := CeilSeconds(ms);
    var m, s := total / 60, total % 60;
    var minutes := Decimal.NatToString(m);
    var seconds := Decimal.PadTwo(Decimal.NatToString(s));
    Decimal.ParseNatToString(m);
    Decimal.TwoDigits(s);
    var r := minutes + ":" + seconds;
    assert r[..|r| - 3] == minutes;
    assert r[|r| - 2..] == seconds;
    r
  }

  /** A full lockout of 900000 ms reads "15:00". */
  lemma FullLockoutReads()
    ensures FormatTime(900000) == "15:00"
  {
  }

  /** The last millisecond of a lockout still shows a full second. */
  lemma LastMillisecondReads()
    ensures FormatTime(1) == "0:01"
  {
  }

  /** The error line under the password field; `NoError` is the empty
      string, which hides it. */
  datatype LoginError = NoError | Suspended | InvalidPassword(attemptsRemaining: int)

  const SuspendedText := "Access suspended due to too many failed attempts."
  const InvalidPrefix := "Invalid password. "
  const InvalidSuffix := " attempts remaining."

  /** The text each error shows: nothing only when there is no error, the
      suspension sentence, or the attempts left between the fixed words, where
      the number reads back as the count. */
  function ErrorText(e: LoginError): (r: string)
    ensures r == "" <==> e == NoError
    ensures e == Suspended ==> r == SuspendedText
    ensures e.InvalidPassword? ==>
      && Text.StartsWith(r, InvalidPrefix)
      && |r| > |InvalidPrefix| + |InvalidSuffix|
      && r[|r| - |InvalidSuffix|..] == InvalidSuffix
    ensures e.InvalidPassword? && e.attemptsRemaining >= 0 ==>
      var digits := r[|InvalidPrefix|..|r| - |InvalidSuffix|];
      Decimal.AllDigits(digits) && Decimal.ParseNat(digits) == e.attemptsRemaining
  {
    match e
    case NoError => ""
    case Suspended =>
      assert |SuspendedText| > 0;
      SuspendedText
    case InvalidPassword(n) =>
      var d := Decimal.IntToString(n);
      var r := InvalidPrefix + d + InvalidSuffix;
      assert r[..|InvalidPrefix|] == InvalidPrefix;
      assert r[|InvalidPrefix|..|r| - |InvalidSuffix|] == d;
      assert r[|r| - |InvalidSuffix|..] == InvalidSuffix;
      r
  }

  datatype LoginPage = LoginPage(password: string, error: LoginError, lockout: Auth.LockoutStatus)
  datatype Outcome = Outcome(page: LoginPage, store: Auth.AuthStore, navigated: bool)

  /** `handleLogin`: nothing while the page shows a lockout; a successful
      login navigates to the dashboard; a failure clears the password field
      and explains itself, switching the page to the lockout view when the
      guard is now locked. */
  function HandleLogin(page: LoginPage, st: Auth.AuthStore, now: int): (r: Outcome)
    ensures page.lockout.isLocked ==> r == Outcome(page, st, false)
    ensures !page.lockout.isLocked ==> (r.navigated <==> Auth.Login(st, now, page.password).ok)
    ensures !page.lockout.isLocked && r.navigated ==> r.page == page && Auth.IsAuthenticated(r.store)
    ensures !page.lockout.isLocked && !r.navigated ==>
      && r.page.password == ""
      && r.store == Auth.Login(st, now, page.password).store
      && (r.page.lockout.isLocked <==> r.page.error == Suspended)
    ensures !page.lockout.isLocked && !r.navigated && !r.page.lockout.isLocked ==>
      r.page.error == InvalidPassword(Auth.MaxAttempts - Auth.GetFailedAttempts(r.store))
    ensures !page.lockout.isLocked && !r.navigated && r.page.lockout.isLocked ==>
      r.page.lockout == Auth.GetLockoutStatus(r.store, now).status
  {
    if page.lockout.isLocked then Outcome(page, st, false)
    else
      var login := Auth.Login(st, now, page.password);
      if login.ok then Outcome(page, login.store, true)
      else
        var currentAttempts := Auth.GetFailedAttempts(login.store);
        var check := Auth.GetLockoutStatus(login.store, now);
        var shown :=
          if check.status.isLocked then page.(lockout := check.status, error := Suspended)
          else page.(error := InvalidPassword(5 - currentAttempts));
        Outcome(shown.(password := ""), check.store, false)
  }

  /** A wrong password on a consistent guard that is open: the fifth failure
      in a row shows the suspension message, and earlier ones show how many
      attempts are left, between 1 and 4. */
  lemma WrongPasswordFeedback(page: LoginPage, st: Auth.AuthStore, now: int)
    requires Auth.Consistent(st)
    requires !page.lockout.isLocked && page.password != Auth.Password
    requires !Auth.GetLockoutStatus(st, now).status.isLocked
    ensures var before := Auth.GetFailedAttempts(Auth.GetLockoutStatus(st, now).store);
      var r := HandleLogin(page, st, now);
      && !r.navigated
      && (before == 4 ==> r.page.error == Suspended && r.page.lockout == Auth.LockoutStatus(true, Auth.LockoutDuration))
      && (before < 4 ==> r.page.error == InvalidPassword(4 - before) && 1 <= 4 - before <= 4)
  {
  }

  /** A page that has not yet noticed a lockout (its status is stale) still
      cannot log in: it is told of the suspension and switches to the
      countdown, whatever the password. */
  lemma StalePageLearnsOfLockout(page: LoginPage, st: Auth.AuthStore, now: int)
    requires !page.lockout.isLocked
    requires Auth.GetLockoutStatus(st, now).status.isLocked
    ensures var r := HandleLogin(page, st, now);
      && !r.navigated && r.store == st
      && r.page.error == Suspended
      && r.page.lockout == Auth.GetLockoutStatus(st, now).status
  {
  }

  /** The once-a-second poll as written: the interval keeps the handler of
      the first render, whose `lockout` is the initial unlocked status, so
      the expiry test compares against that captured value and never fires.
      The page still takes the guard's current status. */
  function PollAsWritten(page: LoginPage, st: Auth.AuthStore, now: int): (r: (LoginPage, Auth.AuthStore))
    ensures r.0.lockout == Auth.GetLockoutStatus(st, now).status
    ensures r.0.error == page.error && r.0.password == page.password
    ensures r.1 == Auth.GetLockoutStatus(st, now).store
  {
    var captured := Auth.Unlocked;
    var check := Auth.GetLockoutStatus(st, now);
    var cleared := if !check.status.isLocked && captured.isLocked then NoError else page.error;
    (page.(lockout := check.status, error := cleared), check.store)
  }

  /** After five failures the page shows the suspension; once the lockout has
      ended the form is back, yet the polled page as written still shows the
      suspension message, while the intended poll clears it. */
  lemma SuspensionOutlivesLockout(at: int)
    ensures var st := Auth.Run(Auth.Empty, Auth.WrongTimes(at, 5));
      var page := LoginPage("", Suspended, Auth.LockoutStatus(true, 1000));
      var later := at + Auth.LockoutDuration;
      && !PollAsWritten(page, st, later).0.lockout.isLocked
      && PollAsWritten(page, st, later).0.error == Suspended
      && Poll(page, st, later).0.error == NoError
  {
    Auth.WrongAttemptsCount(at, 4);
    Auth.RunAppend(Auth.Empty, Auth.WrongTimes(at, 4), Auth.LoginOp(at, "wrong"));
    assert Auth.WrongTimes(at, 4) + [Auth.LoginOp(at, "wrong")] == Auth.WrongTimes(at, 5);
  }

  /** The once-a-second poll, comparing with the lockout the page currently
      shows: the page takes the guard's current status and clears the error
      when a lockout it was showing has ended. */
  function Poll(page: LoginPage, st: Auth.AuthStore, now: int): (r: (LoginPage, Auth.AuthStore))
    ensures r.0.lockout == Auth.GetLockoutStatus(st, now).status
    ensures page.lockout.isLocked && !r.0.lockout.isLocked ==> r.0.error == NoError
    ensures !(page.lockout.isLocked && !r.0.lockout.isLocked) ==> r.0.error == page.error
    ensures r.0.password == page.password
  {
    var check := Auth.GetLockoutStatus(st, now);
    var cleared := if !check.status.isLocked && page.lockout.isLocked then NoError else page.error;
    (page.(lockout := check.status, error := cleared), check.store)
  }
}

=== FILE: auth.dfy ===
/** The login lockout guard of `services/auth.ts` as a pure transition system.

    Local storage holds three string keys; the model keeps their parsed values:
    `bloggetway_auth` (the session flag), `auth_failed_attempts` (a count) and
    `auth_lockout_time` (epoch milliseconds). Every operation that reads the
    clock takes the current time `now` as a parameter and returns the new store
    together with its result. */
module Auth {
  import opened Wrappers

  /** 15 minutes in milliseconds. */
  const LockoutDuration: int := 15 * 60 * 1000
  const MaxAttempts: int := 5
  /** The fixed password the login form is compared against. */
  const Password: string := "admin123"
  const AuthFlagValue: string := "true"

  datatype AuthStore = AuthStore(
    authFlag: Option<string>,
    failedAttempts: Option<int>,
    lockoutTime: Option<int>)

  /** Nothing stored: the state of a fresh browser profile. */
  const Empty := AuthStore(None, None, None)

  datatype LockoutStatus = LockoutStatus(isLocked: bool, remaining: int)
  const Unlocked := LockoutStatus(false, 0)

  datatype StatusResult = StatusResult(status: LockoutStatus, store: AuthStore)
  datatype AttemptResult = AttemptResult(attempts: int, store: AuthStore)
  datatype LoginResult = LoginResult(ok: bool, store: AuthStore)

  /** `isAuthenticated()`. */
  function IsAuthenticated(s: AuthStore): (r: bool)
    ensures r ==> s.authFlag.Some?
    ensures r <==> s.authFlag.Some? && s.authFlag.value == "true"
  {
    s.authFlag == Some(AuthFlagValue)
  }

  /** `getFailedAttempts()`: the stored count, absent read as 0. */
  function GetFailedAttempts(s: AuthStore): (r: int)
    ensures s.failedAttempts.None? ==> r == 0
    ensures s.failedAttempts.Some? ==> r == s.failedAttempts.value
  {
    s.failedAttempts.GetOr(0)
  }

  /** `getLockoutStatus()`: locked while less than the lockout duration has
      passed since the stored lockout time; once it has passed, the lockout
      and the failure count are cleared. */
  function GetLockoutStatus(s: AuthStore, now: int): (r: StatusResult)
    ensures s.lockoutTime.None? ==> r.status == Unlocked && r.store == s
    ensures s.lockoutTime.Some? && now < s.lockoutTime.value + LockoutDuration ==>
      && r.status.isLocked
      && r.status.remaining == s.lockoutTime.value + LockoutDuration - now
      && 0 < r.status.remaining
      && r.store == s
    ensures s.lockoutTime.Some? && now >= s.lockoutTime.value + LockoutDuration ==>
      && r.status == Unlocked
      && r.store == s.(failedAttempts := None, lockoutTime := None)
    ensures r.status.isLocked ==> 0 < r.status.remaining <= s.lockoutTime.value + LockoutDuration - now
  {
    match s.lockoutTime
    case None => StatusResult(Unlocked, s)
    case Some(t) =>
      var remaining := t + LockoutDuration - now;
      if remaining > 0 then StatusResult(LockoutStatus(true, remaining), s)
      else StatusResult(Unlocked, s.(failedAttempts := None, lockoutTime := None))
  }

  /** `recordFailedAttempt()`: one more failure; reaching the maximum starts a
      lockout at `now`. */
  function RecordFailedAttempt(s: AuthStore, now: int): (r: AttemptResult)
    ensures r.attempts == GetFailedAttempts(s) + 1
    ensures r.store.failedAttempts == Some(r.attempts)
    ensures r.attempts >= MaxAttempts ==> r.store.lockoutTime == Some(now)
    ensures r.attempts < MaxAttempts ==> r.store.lockoutTime == s.lockoutTime
    ensures r.store.authFlag == s.authFlag
  {
    var attempts := GetFailedAttempts(s) + 1;
    var s1 := s.(failedAttempts := Some(attempts));
    AttemptResult(attempts, if attempts >= MaxAttempts then s1.(lockoutTime := Some(now)) else s1)
  }

  /** `resetAttempts()`: forgets the failures and any lockout, nothing else. */
  function ResetAttempts(s: AuthStore): (r: AuthStore)
    ensures r.authFlag == s.authFlag
    ensures GetFailedAttempts(r) == 0 && r.lockoutTime.None?
  {
    s.(failedAttempts := None, lockoutTime := None)
  }

  /** `logout()`: removes the session flag, nothing else. */
  function Logout(s: AuthStore): (r: AuthStore)
    ensures !IsAuthenticated(r)
    ensures r.failedAttempts == s.failedAttempts && r.lockoutTime == s.lockoutTime
  {
    s.(authFlag := None)
  }

  /** `login(password)`: rejected without looking at the password while locked;
      otherwise the right password opens a session and clears the guard, and
      a wrong one is recorded as a failure. */
  function Login(s: AuthStore, now: int, password: string): (r: LoginResult)
    ensures GetLockoutStatus(s, now).status.isLocked ==> !r.ok && r.store == s
    ensures !GetLockoutStatus(s, now).status.isLocked && password == Password ==>
      r.ok && r.store == AuthStore(Some(AuthFlagValue), None, None)
    ensures !GetLockoutStatus(s, now).status.isLocked && password != Password ==>
      var before := GetLockoutStatus(s, now).store;
      && !r.ok
      && GetFailedAttempts(r.store) == GetFailedAttempts(before) + 1
      && r.store.authFlag == s.authFlag
      && (r.store.lockoutTime.Some? <==> GetFailedAttempts(r.store) >= MaxAttempts)
      && (r.store.lockoutTime.Some? ==> r.store.lockoutTime == Some(now))
    ensures r.ok <==> !GetLockoutStatus(s, now).status.isLocked && password == Password
  {
    var check := GetLockoutStatus(s, now);
    if check.status.isLocked then LoginResult(false, s)
    else if password == Password then
      LoginResult(true, ResetAttempts(check.store.(authFlag := Some(AuthFlagValue))))
    else
      LoginResult(false, RecordFailedAttempt(check.store, now).store)
  }

  /** The operations a caller can apply to the guard's store. The reads
      `isAuthenticated` and `getFailedAttempts` change nothing and are left out. */
  datatype Op =
    | LoginOp(at: int, password: string)
    | LogoutOp
    | CheckStatusOp(at: int)
    | ResetOp

  function Step(s: AuthStore, op: Op): AuthStore {
    match op
    case LoginOp(at, password) => Login(s, at, password).store
    case LogoutOp => Logout(s)
    case CheckStatusOp(at) => GetLockoutStatus(s, at).store
    case ResetOp => ResetAttempts(s)
  }

  function Run(s: AuthStore, ops: seq<Op>): AuthStore
    decreases |ops|
  {
    if |ops| == 0 then s else Run(Step(s, ops[0]), ops[1..])
  }

  /** The guard's invariant: the count stays within the maximum, and a lockout
      is stored exactly when the count has reached it. */
  predicate Consistent(s: AuthStore) {
    && 0 <= GetFailedAttempts(s) <= MaxAttempts
    && (s.lockoutTime.Some? <==> GetFailedAttempts(s) == MaxAttempts)
  }

  lemma StepPreservesConsistent(s: AuthStore, op: Op)
    requires Consistent(s)
    ensures Consistent(Step(s, op))
  {
  }

  /** Whatever sequence of operations runs from a consistent store (in
      particular from the empty store), the count never exceeds 5 and a
      lockout is stored exactly when it is 5. */
  lemma {:induction false} RunPreservesConsistent(s: AuthStore, ops: seq<Op>)
    requires Consistent(s)
    ensures Consistent(Run(s, ops))
    decreases |ops|
  {
    if |ops| > 0 {
      StepPreservesConsistent(s, ops[0]);
      RunPreservesConsistent(Step(s, ops[0]), ops[1..]);
    }
  }

  lemma ReachableFromEmpty(ops: seq<Op>)
    ensures Consistent(Run(Empty, ops))
  {
    RunPreservesConsistent(Empty, ops);
  }

  /** The session flag changes only at the two places meant to change it: a
      login with the right password while the guard is open sets it, and a
      logout clears it. Wrong passwords, status checks and resets keep it. */
  lemma SessionChanges(s: AuthStore, op: Op)
    ensures op.LogoutOp? ==> !IsAuthenticated(Step(s, op))
    ensures op.LoginOp? ==>
      (IsAuthenticated(Step(s, op)) <==>
        IsAuthenticated(s) || (op.password == Password && !GetLockoutStatus(s, op.at).status.isLocked))
    ensures op.CheckStatusOp? || op.ResetOp? ==> IsAuthenticated(Step(s, op)) == IsAuthenticated(s)
  {
  }

  /** Asking for the status again at the same instant neither changes the
      answer nor the store. */
  lemma StatusIdempotent(s: AuthStore, now: int)
    ensures var first := GetLockoutStatus(s, now);
      GetLockoutStatus(first.store, now) == first
  {
  }

  /** While a lockout lasts, the reported remaining time strictly decreases as
      time advances. */
  lemma RemainingDecreases(s: AuthStore, t1: int, t2: int)
    requires t1 < t2
    requires GetLockoutStatus(s, t2).status.isLocked
    ensures GetLockoutStatus(s, t1).status.isLocked
    ensures GetLockoutStatus(s, t2).status.remaining < GetLockoutStatus(s, t1).status.remaining
  {
  }

  /** While locked, even the right password is rejected and the count is
      untouched. */
  lemma LockedRejectsCorrectPassword(s: AuthStore, now: int)
    requires GetLockoutStatus(s, now).status.isLocked
    ensures !Login(s, now, Password).ok
    ensures GetFailedAttempts(Login(s, now, Password).store) == GetFailedAttempts(s)
    ensures IsAuthenticated(Login(s, now, Password).store) == IsAuthenticated(s)
  {
  }

  /** Fewer than five failures never lock: the right password still works. */
  lemma FewFailuresStayOpen(s: AuthStore, now: int)
    requires Consistent(s)
    requires GetFailedAttempts(s) < MaxAttempts
    ensures !GetLockoutStatus(s, now).status.isLocked
    ensures Login(s, now, Password).ok
    ensures IsAuthenticated(Login(s, now, Password).store)
    ensures GetFailedAttempts(Login(s, now, Password).store) == 0
  {
  }

  function WrongTimes(at: int, n: nat): (ops: seq<Op>)
    ensures |ops| == n
    ensures forall i :: 0 <= i < n ==> ops[i] == LoginOp(at, "wrong")
  {
    seq(n, _ => LoginOp(at, "wrong"))
  }

  /** From a fresh store, `k` wrong passwords at one instant leave `k`
      recorded failures and no lockout as long as `k < 5`. */
  lemma {:induction false} WrongAttemptsCount(at: int, k: nat)
    requires k < MaxAttempts
    ensures var s := Run(Empty, WrongTimes(at, k));
      s.failedAttempts == (if k == 0 then None else Some(k)) && s.lockoutTime.None? && s.authFlag.None?
  {
    if k > 0 {
      WrongAttemptsCount(at, k - 1);
      RunAppend(Empty, WrongTimes(at, k - 1), LoginOp(at, "wrong"));
      assert WrongTimes(at, k - 1) + [LoginOp(at, "wrong")] == WrongTimes(at, k);
    }
  }

  lemma {:induction false} RunAppend(s: AuthStore, ops: seq<Op>, op: Op)
    ensures Run(s, ops + [op]) == Step(Run(s, ops), op)
    decreases |ops|
  {
    if |ops| > 0 {
      RunAppend(Step(s, ops[0]), ops[1..], op);
      assert (ops + [op])[1..] == ops[1..] + [op];
    }
  }

  /** The documented scenario: five wrong passwords lock the guard for
      900000 ms; during the lockout the right password fails; one second
      after it ends the right password succeeds and the count is back to 0. */
  lemma LockoutScenario(at: int)
    ensures var locked := Run(Empty, WrongTimes(at, 5));
      && GetLockoutStatus(locked, at) == StatusResult(LockoutStatus(true, 900000), locked)
      && !Login(locked, at + 60000, Password).ok
      && GetLockoutStatus(locked, at + LockoutDuration + 1000).status == Unlocked
      && Login(locked, at + LockoutDuration + 1000, Password).ok
      && GetFailedAttempts(Login(locked, at + LockoutDuration + 1000, Password).store) == 0
  {
    WrongAttemptsCount(at, 4);
    RunAppend(Empty, WrongTimes(at, 4), LoginOp(at, "wrong"));
    assert WrongTimes(at, 4) + [LoginOp(at, "wrong")] == WrongTimes(at, 5);
  }
}

=== FILE: dashboard.dfy ===
/** The state logic of `pages/Dashboard.tsx`: post counts, the simulated
    live-visitor counter with its session views, the live chart, and the
    recent-posts table. Random draws are parameters. */
module Dashboard {
  import opened Types
  import Seqs
  import Decimal

  function IsPublished(p: BlogPost): bool { p.status == Published }
  function IsDraft(p: BlogPost): bool { p.status == Draft }
  function IsScheduled(p: BlogPost): bool { p.status == Scheduled }

  /** The number of positions holding a post with the given status: a
      reference count, independent of how the page filters. */
  function StatusCount(posts: seq<BlogPost>, status: PostStatus): nat
    decreases |posts|
  {
    if |posts| == 0 then 0
    else (if posts[0].status == status then 1 else 0) + StatusCount(posts[1..], status)
  }

  /** Filtering by a test that is "has this status" keeps exactly as many
      posts as the reference count. */
  lemma {:induction false} FilterMatchesCount(posts: seq<BlogPost>, keep: BlogPost -> bool, status: PostStatus)
    requires forall p :: keep(p) <==> p.status == status
    ensures |Seqs.Filter(posts, keep)| == StatusCount(posts, status)
    decreases |posts|
  {
    if |posts| > 0 {
      FilterMatchesCount(posts[1..], keep, status);
    }
  }

  /** `publishedCount`: the number of published posts. */
  function PublishedCount(posts: seq<BlogPost>): (r: nat)
    ensures r == StatusCount(posts, Published)
    ensures r <= |posts|
    ensures r == 0 <==> forall i :: 0 <= i < |posts| ==> posts[i].status != Published
  {
    FilterMatchesCount(posts, IsPublished, Published);
    var f := Seqs.Filter(posts, IsPublished);
    assert |f| > 0 ==> f[0] in f;
    assert forall i :: 0 <= i < |posts| && IsPublished(posts[i]) ==> posts[i] in f;
    |f|
  }

  /** `draftCount`: the number of drafts. */
  function DraftCount(posts: seq<BlogPost>): (r: nat)
    ensures r == StatusCount(posts, Draft)
    ensures r <= |posts|
    ensures r == 0 <==> forall i :: 0 <= i < |posts| ==> posts[i].status != Draft
  {
    FilterMatchesCount(posts, IsDraft, Draft);
    var f := Seqs.Filter(posts, IsDraft);
    assert |f| > 0 ==> f[0] in f;
    assert forall i :: 0 <= i < |posts| && IsDraft(posts[i]) ==> posts[i] in f;
    |f|
  }

  /** Every post is published, a draft or scheduled, so the two cards plus
      the scheduled posts account for every post exactly once; the two cards
      alone never exceed the number of posts. */
  lemma {:induction false} CountsPartition(posts: seq<BlogPost>)
    ensures PublishedCount(posts) + DraftCount(posts) + |Seqs.Filter(posts, IsScheduled)| == |posts|
    ensures PublishedCount(posts) + DraftCount(posts) <= |posts|
  {
    if |posts| > 0 {
      CountsPartition(posts[1..]);
    }
  }

  /** The simulated visitors on the site and the views accumulated during
      this session. */
  datatype Live = Live(users: int, sessionViews: int)

  /** Mount: nothing yet; half a second later the counter jumps to 12
      without adding session views. */
  const Initial := Live(0, 0)
  function Warmup(s: Live): (r: Live)
    ensures r.users == 12 && r.sessionViews == s.sessionViews
  {
    s.(users := 12)
  }

  /** One interval tick with `change = floor(random * 3) - 1`: the counter
      moves by the change but not below zero, and a rise is added to the
      session views. */
  function Tick(s: Live, change: int): (r: Live)
    requires -1 <= change <= 1
    ensures r.users >= 0
    ensures r.users >= s.users + change
    ensures r.users == 0 || r.users == s.users + change
    ensures s.users >= 0 ==> -1 <= r.users - s.users <= 1
    ensures r.users > s.users ==> r.sessionViews == s.sessionViews + (r.users - s.users)
    ensures r.users <= s.users ==> r.sessionViews == s.sessionViews
  {
    var newVal := if s.users + change > 0 then s.users + change else 0;
    Live(newVal, if newVal > s.users then s.sessionViews + (newVal - s.users) else s.sessionViews)
  }

  predicate ValidChanges(changes: seq<int>) {
    forall i :: 0 <= i < |changes| ==> -1 <= changes[i] <= 1
  }

  function Ticks(s: Live, changes: seq<int>): Live
    requires ValidChanges(changes)
    decreases |changes|
  {
    if |changes| == 0 then s else Ticks(Tick(s, changes[0]), changes[1..])
  }

  /** Over any run of ticks the counter stays non-negative, session views
      never decrease, and they grow at least as much as the counter does. */
  lemma {:induction false} TicksAccumulate(s: Live, changes: seq<int>)
    requires ValidChanges(changes)
    requires s.users >= 0
    ensures Ticks(s, changes).users >= 0
    ensures Ticks(s, changes).sessionViews >= s.sessionViews
    ensures Ticks(s, changes).sessionViews - s.sessionViews >= Ticks(s, changes).users - s.users
    decreases |changes|
  {
    if |changes| > 0 {
      TicksAccumulate(Tick(s, changes[0]), changes[1..]);
    }
  }

  datatype ChartPoint = ChartPoint(name: string, views: int)

  /** `${hour}:00`. */
  function HourLabel(hour: nat): string {
    Decimal.NatToString(hour) + ":00"
  }

  /** The chart on mount: six points four hours apart, all at zero. */
  function InitialChart(): (r: seq<ChartPoint>)
    ensures |r| == 6
    ensures forall i :: 0 <= i < 6 ==> r[i] == ChartPoint(HourLabel(4 * i), 0)
  {
    seq(6, i requires 0 <= i < 6 => ChartPoint(HourLabel(i * 4), 0))
  }

  lemma InitialChartLabels()
    ensures InitialChart()[0].name == "0:00" && InitialChart()[5].name == "20:00"
  {
    assert Decimal.DigitChar(0) == '0' && Decimal.DigitChar(2) == '2';
    assert Decimal.NatToString(20) == "20";
  }

  /** One chart tick with `bump = floor(random * 5)`: only the last point
      changes, and only its views, by `bump`. */
  function ChartTick(data: seq<ChartPoint>, bump: int): (r: seq<ChartPoint>)
    requires |data| > 0
    requires 0 <= bump <= 4
    ensures |r| == |data|
    ensures r[..|data| - 1] == data[..|data| - 1]
    ensures r[|data| - 1].name == data[|data| - 1].name
    ensures r[|data| - 1].views == data[|data| - 1].views + bump
    ensures data[|data| - 1].views <= r[|data| - 1].views <= data[|data| - 1].views + 4
  {
    var last := data[|data| - 1];
    data[|data| - 1 := last.(views := last.views + bump)]
  }

  predicate ValidBumps(bumps: seq<int>) {
    forall i :: 0 <= i < |bumps| ==> 0 <= bumps[i] <= 4
  }

  function ChartTicks(data: seq<ChartPoint>, bumps: seq<int>): (r: seq<ChartPoint>)
    requires |data| > 0
    requires ValidBumps(bumps)
    decreases |bumps|
  {
    if |bumps| == 0 then data else ChartTicks(ChartTick(data, bumps[0]), bumps[1..])
  }

  /** However long the chart runs, it keeps its points and their labels,
      every point but the last keeps its views, and the last never loses any. */
  lemma {:induction false} ChartTicksStable(data: seq<ChartPoint>, bumps: seq<int>)
    requires |data| > 0
    requires ValidBumps(bumps)
    ensures var r := ChartTicks(data, bumps);
      && |r| == |data|
      && r[..|data| - 1] == data[..|data| - 1]
      && (forall i :: 0 <= i < |data| ==> r[i].name == data[i].name)
      && r[|data| - 1].views >= data[|data| - 1].views
    decreases |bumps|
  {
    if |bumps| > 0 {
      var next := ChartTick(data, bumps[0]);
      ChartTicksStable(next, bumps[1..]);
      forall i | 0 <= i < |data| - 1
        ensures next[i] == data[i]
      {
        assert next[..|data| - 1][i] == data[..|data| - 1][i];
      }
    }
  }

  /** The recent-posts table: the first five posts, or all when fewer. */
  function RecentPosts(posts: seq<BlogPost>): (r: seq<BlogPost>)
    ensures |r| == if |posts| < 5 then |posts| else 5
    ensures r == posts[..|r|]
  {
    Seqs.Take(posts, 5)
  }
}

=== FILE: decimal.dfy ===
/** Decimal rendering of numbers (`n.toString()`, `padStart(2, '0')`) and the
    matching reader used to state that a rendering can be read back. */
module Decimal {

  predicate IsDigit(c: char) {
    '0' <= c <= '9'
  }

  predicate AllDigits(s: string) {
    forall i :: 0 <= i < |s| ==> IsDigit(s[i])
  }

  function DigitChar(d: nat): (c: char)
    requires d < 10
    ensures IsDigit(c)
  {
    ('0' as int + d) as char
  }

  function DigitValue(c: char): (d: nat)
    requires IsDigit(c)
    ensures d < 10
  {
    c as int - '0' as int
  }

  /** `n.toString()` for a non-negative integer: shortest decimal digits,
      so a leading zero appears only in "0" itself. */
  function NatToString(n: nat): (r: string)
    ensures 1 <= |r|
    ensures AllDigits(r)
    ensures n < 10 <==> |r| == 1
    ensures |r| > 1 ==> r[0] != '0'
    ensures r[0] == '0' <==> n == 0
    decreases n
  {
    if n < 10 then [DigitChar(n)] else NatToString(n / 10) + [DigitChar(n % 10)]
  }

  /** `n.toString()` for any integer: a minus sign before the digits of `|n|`. */
  function IntToString(n: int): (r: string)
    ensures |r| >= 1
    ensures n < 0 <==> r[0] == '-'
    ensures n >= 0 ==> AllDigits(r) && ParseNat(r) == n
    ensures n < 0 ==> AllDigits(r[1..]) && ParseNat(r[1..]) == -n
  {
    if n < 0 then
      var d := NatToString(-n);
      ParseNatToString(-n);
      assert ("-" + d)[1..] == d;
      "-" + d
    else
      ParseNatToString(n);
      NatToString(n)
  }

  /** The value of a string of decimal digits (empty reads as 0). */
  function ParseNat(s: string): nat
    requires AllDigits(s)
  {
    if |s| == 0 then 0 else ParseNat(s[..|s| - 1]) * 10 + DigitValue(s[|s| - 1])
  }

  /** Reading back a rendered natural number gives the number. */
  lemma {:induction false} ParseNatToString(n: nat)
    ensures ParseNat(NatToString(n)) == n
    decreases n
  {
    if n >= 10 {
      ParseNatToString(n / 10);
      var s := NatToString(n);
      assert s[..|s| - 1] == NatToString(n / 10);
    }
  }

  /** `s.padStart(2, '0')`: one leading zero before a single character. */
  function PadTwo(s: string): (r: string)
    ensures |s| >= 2 ==> r == s
    ensures |s| < 2 ==> |r| == |s| + 1 && r[0] == '0' && r[1..] == s
  {
    if |s| < 2 then "0" + s else s
  }

  /** `n.toString().padStart(2, '0')` for a number below 100: exactly two
      digits that read back as `n`. */
  lemma TwoDigits(n: nat)
    requires n < 100
    ensures |PadTwo(NatToString(n))| == 2
    ensures AllDigits(PadTwo(NatToString(n)))
    ensures ParseNat(PadTwo(NatToString(n))) == n
  {
    var s := NatToString(n);
    ParseNatToString(n);
    if n >= 10 {
      assert NatToString(n / 10) == [DigitChar(n / 10)];
    } else {
      var r := PadTwo(s);
      assert r[..1] == "0";
      assert r[..|r| - 1] == "0";
    }
  }
}

=== FILE: gallery.dfy ===
/** The image slider shared by the public post view and the preview page:
    which image block is shown, and the circular previous/next navigation. */
module Gallery {
  import opened Wrappers
  import opened Types

  /** `post.galleryImages && post.galleryImages.length > 0`: the slider is shown. */
  predicate ShowsSlider(p: BlogPost) {
    p.galleryImages.Some? && |p.galleryImages.value| > 0
  }

  /** `post.coverImage && !post.galleryImages?.length`: the cover is shown. */
  predicate ShowsCover(p: BlogPost) {
    p.coverImage != "" && !ShowsSlider(p)
  }

  /** At most one image block is shown, and a post with a cover always shows
      one of them. */
  lemma CoverOrSlider(p: BlogPost)
    ensures !(ShowsCover(p) && ShowsSlider(p))
    ensures p.coverImage != "" ==> ShowsCover(p) || ShowsSlider(p)
    ensures ShowsCover(p) <==> p.coverImage != "" && |Gallery(p)| == 0
  {
  }

  /** The handlers run only from buttons inside the slider, so a present
      gallery is never empty when they run. */
  predicate Navigable(gallery: Option<seq<string>>) {
    gallery.Some? ==> |gallery.value| > 0
  }

  /** `nextSlide()`: one step forward, wrapping from the last image to the
      first; nothing happens without a gallery. The index is never negative,
      so JavaScript's `%` agrees with Dafny's here. */
  function NextSlide(gallery: Option<seq<string>>, index: nat): (r: nat)
    requires Navigable(gallery)
    ensures gallery.None? ==> r == index
    ensures gallery.Some? ==> r < |gallery.value|
    ensures gallery.Some? && index + 1 < |gallery.value| ==> r == index + 1
    ensures gallery.Some? && index + 1 == |gallery.value| ==> r == 0
    ensures gallery.Some? ==> r + |gallery.value| * ((index + 1) / |gallery.value|) == index + 1
  {
    match gallery
    case None => index
    case Some(images) => (index + 1) % |images|
  }

  /** `prevSlide()`: one step back, wrapping from the first image to the
      last; nothing happens without a gallery. */
  function PrevSlide(gallery: Option<seq<string>>, index: nat): (r: nat)
    requires Navigable(gallery)
    ensures gallery.None? ==> r == index
    ensures gallery.Some? ==> r < |gallery.value|
    ensures gallery.Some? && 0 < index <= |gallery.value| ==> r == index - 1
    ensures gallery.Some? && index == 0 ==> r == |gallery.value| - 1
    ensures gallery.Some? ==> r + |gallery.value| * ((index + |gallery.value| - 1) / |gallery.value|) == index + |gallery.value| - 1
  {
    match gallery
    case None => index
    case Some(images) => (index - 1 + |images|) % |images|
  }

  /** Going back undoes going forward, and going forward undoes going back,
      for any index inside the gallery. */
  lemma PrevUndoesNext(gallery: Option<seq<string>>, index: nat)
    requires Navigable(gallery)
    requires gallery.Some? ==> index < |gallery.value|
    ensures PrevSlide(gallery, NextSlide(gallery, index)) == index
    ensures NextSlide(gallery, PrevSlide(gallery, index)) == index
  {
  }
}

=== FILE: layout.dfy ===
/** The display rules of `components/Layout.tsx`: which layout a path gets,
    the fallbacks for the site name, logo, footer links and footer text, and
    which navigation link is highlighted. */
module Layout {
  import opened Wrappers
  import opened Types
  import Text
  import Storage

  datatype Mode = Bare | Admin | Public

  /** The login page is rendered alone; this test comes before the admin
      prefix test, so the login page never gets the admin chrome. */
  function LayoutMode(path: string): (r: Mode)
    ensures r == Bare <==> path == "/admin/login"
    ensures r == Admin <==> path != "/admin/login" && Text.StartsWith(path, "/admin")
    ensures r == Public <==> !Text.StartsWith(path, "/admin")
  {
    if path == "/admin/login" then Bare
    else if Text.StartsWith(path, "/admin") then Admin
    else Public
  }

  /** `settings.siteName || 'BlogGetWay'`. */
  function DisplaySiteName(s: SiteSettings): (r: string)
    ensures r != ""
    ensures s.siteName != "" ==> r == s.siteName
    ensures s.siteName == "" ==> r == "BlogGetWay"
  {
    if s.siteName != "" then s.siteName else "BlogGetWay"
  }

  /** The logo image: the logo URL, else the favicon URL, else no image. */
  function LogoSource(s: SiteSettings): (r: Option<string>)
    ensures r.None? <==> s.logoUrl == "" && s.faviconUrl == ""
    ensures r.Some? ==> r.value != "" && (r.value == s.logoUrl || r.value == s.faviconUrl)
    ensures s.logoUrl != "" ==> r == Some(s.logoUrl)
  {
    if s.logoUrl != "" then Some(s.logoUrl)
    else if s.faviconUrl != "" then Some(s.faviconUrl)
    else None
  }

  const ExploreFallback := [FooterLink("Home", "/"), FooterLink("Latest Articles", "/blog")]
  const LegalFallback := [FooterLink("Privacy Policy", "#"), FooterLink("Terms of Service", "#")]

  /** The Explore column: the configured links, or Home and Latest Articles
      when there are none. The column is never empty. */
  function ExploreLinksShown(s: SiteSettings): (r: seq<FooterLink>)
    ensures |r| > 0
    ensures s.footerExploreLinks != [] ==> r == s.footerExploreLinks
    ensures s.footerExploreLinks == [] ==> r == ExploreFallback
  {
    if |s.footerExploreLinks| == 0 then ExploreFallback else s.footerExploreLinks
  }

  /** The Legal column: the configured links, or Privacy Policy and Terms of
      Service when there are none. The column is never empty. */
  function LegalLinksShown(s: SiteSettings): (r: seq<FooterLink>)
    ensures |r| > 0
    ensures s.footerLegalLinks != [] ==> r == s.footerLegalLinks
    ensures s.footerLegalLinks == [] ==> r == LegalFallback
  {
    if |s.footerLegalLinks| == 0 then LegalFallback else s.footerLegalLinks
  }

  /** `settings.footerText || 'All rights reserved.'`. */
  function FooterTextShown(s: SiteSettings): (r: string)
    ensures r != ""
    ensures s.footerText != "" ==> r == s.footerText
    ensures s.footerText == "" ==> r == "All rights reserved."
  {
    if s.footerText != "" then s.footerText else "All rights reserved."
  }

  const AdminTargets: seq<string> :=
    ["/admin", "/admin/posts", "/admin/new-post", "/admin/analytics", "/admin/chat", "/admin/settings"]
  const PublicTargets: seq<string> := ["/", "/blog", "/about", "/contact"]

  /** A navigation link is highlighted exactly when the path is its target. */
  predicate IsActive(path: string, target: string) {
    path == target
  }

  predicate Distinct(targets: seq<string>) {
    forall i, j :: 0 <= i < j < |targets| ==> targets[i] != targets[j]
  }

  /** In any navigation whose targets are distinct, at most one link is
      highlighted, and the highlighted one is the link whose target is the
      path. */
  lemma AtMostOneActiveIn(path: string, targets: seq<string>)
    requires Distinct(targets)
    ensures forall i, j :: 0 <= i < j < |targets| ==> !(IsActive(path, targets[i]) && IsActive(path, targets[j]))
    ensures forall i :: 0 <= i < |targets| ==> (IsActive(path, targets[i]) <==> targets[i] == path)
  {
  }

  /** The layout's two navigations have distinct targets, so each highlights
      at most one link. */
  lemma AtMostOneActive(path: string)
    ensures Distinct(AdminTargets) && Distinct(PublicTargets)
    ensures forall i, j :: 0 <= i < j < |AdminTargets| ==> !(IsActive(path, AdminTargets[i]) && IsActive(path, AdminTargets[j]))
    ensures forall i, j :: 0 <= i < j < |PublicTargets| ==> !(IsActive(path, PublicTargets[i]) && IsActive(path, PublicTargets[j]))
  {
    AtMostOneActiveIn(path, AdminTargets);
    AtMostOneActiveIn(path, PublicTargets);
  }

  /** With nothing stored, the layout shows the default name and the four
      default Explore links (the fallback list is not needed). */
  lemma FreshSiteLayout()
    ensures DisplaySiteName(Storage.GetSettings(Storage.EmptyStore)) == "BlogGetWay"
    ensures ExploreLinksShown(Storage.GetSettings(Storage.EmptyStore)) == Storage.InitialSettings.footerExploreLinks
    ensures |ExploreLinksShown(Storage.GetSettings(Storage.EmptyStore))| == 4
    ensures FooterTextShown(Storage.GetSettings(Storage.EmptyStore)) == "All rights reserved."
    ensures LogoSource(Storage.GetSettings(Storage.EmptyStore)).None?
  {
  }

  /** Settings saved with the name and footer text cleared are kept cleared
      in storage, and the layout falls back to its defaults for them. */
  lemma ClearedTextFallsBack(st: Storage.LocalStore, s: SiteSettings)
    requires s.siteName == "" && s.footerText == ""
    ensures Storage.GetSettings(Storage.SaveSettings(st, s)).footerText == ""
    ensures DisplaySiteName(Storage.GetSettings(Storage.SaveSettings(st, s))) == "BlogGetWay"
    ensures FooterTextShown(Storage.GetSettings(Storage.SaveSettings(st, s))) == "All rights reserved."
  {
  }
}

=== FILE: post_editor.dfy ===
/** The state logic of `pages/PostEditor.tsx`: the blank post, property
    edits, the image gallery, where AI results go, and how research sources
    are listed. AI output, generated ids and loaded files are parameters. */
module PostEditor {
  import opened Wrappers
  import opened Types
  import Seqs
  import PostFields
  import Storage
  import Text

  /** The editor's initial state before an id is assigned. */
  const BlankPost := BlogPost("", "", "", "", "", "", Some([]), "Admin", "", [], Draft, "", None, None, 0)

  datatype Opened = Opened(post: BlogPost, store: Storage.LocalStore)

  /** The mount effect: with a route id, the stored post with that id is
      loaded (the blank post stays when none has it); without one, the blank
      post gets the freshly generated `uuid`. */
  function OpenEditor(st: Storage.LocalStore, routeId: Option<string>, uuid: string, loadedAt: string): (r: Opened)
    ensures routeId.None? ==> r.store == st && r.post.id == uuid
    ensures routeId.None? ==>
      && r.post.status == Draft && r.post.author == "Admin" && r.post.views == 0
      && r.post.galleryImages == Some([]) && r.post.tags == []
      && r.post.title == "" && r.post.content == ""
      && r.post.slug == "" && r.post.excerpt == "" && r.post.coverImage == ""
      && r.post.category == "" && r.post.publishedAt == ""
      && r.post.seoTitle.None? && r.post.seoDescription.None?
    ensures routeId.Some? ==> r.store == Storage.GetPosts(st, loadedAt).store
    ensures routeId.Some? ==> var found := Storage.GetPost(st, routeId.value, loadedAt).post;
      (found.Some? ==> r.post == found.value) && (found.None? ==> r.post == BlankPost)
  {
    match routeId
    case None => Opened(BlankPost.(id := uuid), st)
    case Some(id) =>
      var read := Storage.GetPost(st, id, loadedAt);
      Opened(read.post.GetOr(BlankPost), read.store)
  }

  /** `handleChange(field, value)`: property `k` becomes `value`, every other
      property keeps its value. */
  function HandleChange(p: BlogPost, k: PostFields.Key, value: PostFields.Value): (r: BlogPost)
    requires PostFields.Fits(k, value)
    ensures PostFields.Get(r, k) == value
    ensures forall k' :: k' != k ==> PostFields.Get(r, k') == PostFields.Get(p, k')
  {
    match k
    case Id => p.(id := value.text)
    case Title => p.(title := value.text)
    case Slug => p.(slug := value.text)
    case Content => p.(content := value.text)
    case Excerpt => p.(excerpt := value.text)
    case CoverImage => p.(coverImage := value.text)
    case GalleryImages => p.(galleryImages := value.optionalTexts)
    case Author => p.(author := value.text)
    case Category => p.(category := value.text)
    case Tags => p.(tags := value.texts)
    case Status => p.(status := value.status)
    case PublishedAt => p.(publishedAt := value.text)
    case SeoTitle => p.(seoTitle := value.optionalText)
    case SeoDescription => p.(seoDescription := value.optionalText)
    case Views => p.(views := value.number)
  }

  /** One loaded gallery file: its data URL goes at the end of the gallery;
      a missing gallery counts as empty. */
  function AddGalleryImage(p: BlogPost, image: string): (r: BlogPost)
    ensures r.galleryImages == Some(Gallery(p) + [image])
    ensures forall k :: k != PostFields.GalleryImages ==> PostFields.Get(r, k) == PostFields.Get(p, k)
  {
    HandleChange(p, PostFields.GalleryImages, PostFields.OptionalTextList(Some(Gallery(p) + [image])))
  }

  /** `handleGallerySelect`: the files' data URLs, in the order their reads
      complete, each appended once. */
  function AddGalleryImages(p: BlogPost, images: seq<string>): (r: BlogPost)
    ensures |images| > 0 ==> r.galleryImages == Some(Gallery(p) + images)
    ensures Gallery(r) == Gallery(p) + images
    ensures forall k :: k != PostFields.GalleryImages ==> PostFields.Get(r, k) == PostFields.Get(p, k)
    decreases |images|
  {
    if |images| == 0 then p
    else
      var r := AddGalleryImages(AddGalleryImage(p, images[0]), images[1..]);
      assert Gallery(p) + [images[0]] + images[1..] == Gallery(p) + images;
      r
  }

  /** `removeGalleryImage(index)`: exactly the image at `index` goes, the rest
      keep their order; an index outside the gallery removes nothing. */
  function RemoveGalleryImage(p: BlogPost, index: int): (r: BlogPost)
    ensures r.galleryImages.Some?
    ensures 0 <= index < |Gallery(p)| ==> Gallery(r) == Gallery(p)[..index] + Gallery(p)[index + 1..]
    ensures !(0 <= index < |Gallery(p)|) ==> Gallery(r) == Gallery(p)
    ensures forall k :: k != PostFields.GalleryImages ==> PostFields.Get(r, k) == PostFields.Get(p, k)
  {
    HandleChange(p, PostFields.GalleryImages, PostFields.OptionalTextList(Some(Seqs.RemoveAt(Gallery(p), index))))
  }

  datatype AiAction = Fix | Expand | Summarize | Research

  /** Where an AI result lands: a summary replaces the excerpt, research is
      appended to the content after a blank line, and a fix or expansion
      replaces the content. Nothing else changes. */
  function ApplyAiResult(p: BlogPost, action: AiAction, result: string): (r: BlogPost)
    ensures action == Summarize ==> r.excerpt == result && r.content == p.content
    ensures action == Research ==> r.content == p.content + "\n\n" + result && r.excerpt == p.excerpt
    ensures action == Research ==> Text.StartsWith(r.content, p.content)
    ensures (action == Fix || action == Expand) ==> r.content == result && r.excerpt == p.excerpt
    ensures forall k :: k != PostFields.Content && k != PostFields.Excerpt ==> PostFields.Get(r, k) == PostFields.Get(p, k)
  {
    match action
    case Summarize => HandleChange(p, PostFields.Excerpt, PostFields.Text(result))
    case Research => HandleChange(p, PostFields.Content, PostFields.Text(p.content + "\n\n" + result))
    case _ => HandleChange(p, PostFields.Content, PostFields.Text(result))
  }

  /** A grounding source returned with research: `web` and its properties may
      be missing. */
  datatype Web = Web(title: Option<string>, uri: Option<string>)
  datatype GroundingSource = GroundingSource(web: Option<Web>)

  /** `s.web?.title || 'Link'`. */
  function SourceTitle(s: GroundingSource): (r: string)
    ensures r != ""
    ensures s.web.Some? && s.web.value.title.Some? && s.web.value.title.value != "" ==> r == s.web.value.title.value
    ensures s.web.None? || s.web.value.title.None? || s.web.value.title.value == "" ==> r == "Link"
  {
    if s.web.Some? && s.web.value.title.Some? && s.web.value.title.value != "" then s.web.value.title.value else "Link"
  }

  /** `${s.web?.uri}`: a missing uri is interpolated as the text "undefined". */
  function SourceUri(s: GroundingSource): string {
    if s.web.Some? && s.web.value.uri.Some? then s.web.value.uri.value else "undefined"
  }

  /** One markdown bullet: `- [title](uri)`. The line opens with the bullet
      and the bracketed title, closes with the uri in parentheses, and holds
      nothing else. */
  function SourceLine(s: GroundingSource): (r: string)
    ensures Text.StartsWith(r, "- [" + SourceTitle(s) + "](")
    ensures |r| == |SourceTitle(s)| + |SourceUri(s)| + 6
    ensures r[|r| - |SourceUri(s)| - 1..] == SourceUri(s) + ")"
  {
    var t, u := SourceTitle(s), SourceUri(s);
    var r := "- [" + t + "](" + u + ")";
    assert r[..|t| + 5] == "- [" + t + "](";
    assert r[|r| - |u| - 1..] == u + ")";
    r
  }

  function JoinLines(lines: seq<string>): string {
    if |lines| == 0 then ""
    else if |lines| == 1 then lines[0]
    else lines[0] + "\n" + JoinLines(lines[1..])
  }

  /** The source list: one bullet per source, joined with newlines. */
  function FormatSources(sources: seq<GroundingSource>): string {
    JoinLines(seq(|sources|, i requires 0 <= i < |sources| => SourceLine(sources[i])))
  }

  /** The bold heading naming the prompt, then the findings. */
  function ResearchHeading(prompt: string, text: string): string {
    "**Research Findings for: " + prompt + "**\n\n" + text
  }

  /** The sources block closing a research result. */
  function SourcesBlock(sources: seq<GroundingSource>): string {
    "\n\n*Sources:*\n" + FormatSources(sources)
  }

  /** The research result inserted into the content: the heading and the
      findings, then the sources block and nothing after it. With no sources
      the block is the bare `*Sources:*` line. */
  function ResearchResult(prompt: string, text: string, sources: seq<GroundingSource>): (r: string)
    ensures Text.StartsWith(r, ResearchHeading(prompt, text))
    ensures |r| == |ResearchHeading(prompt, text)| + |SourcesBlock(sources)|
    ensures r[|r| - |SourcesBlock(sources)|..] == SourcesBlock(sources)
    ensures sources == [] ==> r == ResearchHeading(prompt, text) + "\n\n*Sources:*\n"
  {
    var h, b := ResearchHeading(prompt, text), SourcesBlock(sources);
    var r := "**Research Findings for: " + prompt + "**\n\n" + text + "\n\n*Sources:*\n" + FormatSources(sources);
    assert r == h + b;
    assert r[..|h|] == h;
    assert r[|r| - |b|..] == b;
    r
  }

  function NewlineCount(s: string): nat {
    if |s| == 0 then 0 else (if s[0] == '\n' then 1 else 0) + NewlineCount(s[1..])
  }

  lemma {:induction false} NewlineCountConcat(a: string, b: string)
    ensures NewlineCount(a + b) == NewlineCount(a) + NewlineCount(b)
  {
    if |a| > 0 {
      NewlineCountConcat(a[1..], b);
      assert (a + b)[1..] == a[1..] + b;
    } else {
      assert a + b == b;
    }
  }

  predicate NoNewline(s: string) {
    forall i :: 0 <= i < |s| ==> s[i] != '\n'
  }

  lemma {:induction false} NoNewlineCountsZero(s: string)
    requires NoNewline(s)
    ensures NewlineCount(s) == 0
  {
    if |s| > 0 {
      NoNewlineCountsZero(s[1..]);
    }
  }

  predicate SingleLine(s: GroundingSource) {
    s.web.Some? ==>
      (s.web.value.title.Some? ==> NoNewline(s.web.value.title.value)) &&
      (s.web.value.uri.Some? ==> NoNewline(s.web.value.uri.value))
  }

  lemma SourceLineIsOneLine(s: GroundingSource)
    requires SingleLine(s)
    ensures NoNewline(SourceLine(s))
    ensures NewlineCount(SourceLine(s)) == 0
  {
    var t, u := SourceTitle(s), SourceUri(s);
    assert NoNewline(t);
    assert NoNewline(u);
    assert NoNewline(SourceLine(s));
    NoNewlineCountsZero(SourceLine(s));
  }

  /** Sources whose titles and uris are single lines are listed one per
      line: the list has exactly one line break fewer than sources. */
  lemma {:induction false} OneSourcePerLine(sources: seq<GroundingSource>)
    requires |sources| > 0
    requires forall i :: 0 <= i < |sources| ==> SingleLine(sources[i])
    ensures NewlineCount(FormatSources(sources)) == |sources| - 1
  {
    SourceLineIsOneLine(sources[0]);
    var lines := seq(|sources|, i requires 0 <= i < |sources| => SourceLine(sources[i]));
    if |sources| > 1 {
      OneSourcePerLine(sources[1..]);
      assert lines[1..] == seq(|sources| - 1, i requires 0 <= i < |sources| - 1 => SourceLine(sources[1..][i]));
      NewlineCountConcat(lines[0], "\n");
      NewlineCountConcat(lines[0] + "\n", JoinLines(lines[1..]));
    }
  }

  /** The lines of a string: the pieces between line breaks, as
      `split('\n')` returns them. A reference for reading a joined list back
      line by line. */
  function Lines(s: string): (r: seq<string>)
    ensures |r| >= 1
    decreases |s|
  {
    if |s| == 0 then [""]
    else if s[0] == '\n' then [""] + Lines(s[1..])
    else var rest := Lines(s[1..]); [[s[0]] + rest[0]] + rest[1..]
  }

  lemma {:induction false} LinesOfOneLine(a: string)
    requires NoNewline(a)
    ensures Lines(a) == [a]
    decreases |a|
  {
    if |a| > 0 {
      LinesOfOneLine(a[1..]);
      assert [a[0]] + a[1..] == a;
    }
  }

  lemma {:induction false} LinesAfterBreak(a: string, b: string)
    requires NoNewline(a)
    ensures Lines(a + "\n" + b) == [a] + Lines(b)
    decreases |a|
  {
    var s := a + "\n" + b;
    if |a| == 0 {
      assert s[1..] == b;
    } else {
      assert s[1..] == a[1..] + "\n" + b;
      LinesAfterBreak(a[1..], b);
      assert [a[0]] + a[1..] == a;
    }
  }

  /** Joining lines that hold no line break and splitting the result gives
      the lines back. */
  lemma {:induction false} LinesOfJoin(lines: seq<string>)
    requires |lines| > 0
    requires forall i :: 0 <= i < |lines| ==> NoNewline(lines[i])
    ensures Lines(JoinLines(lines)) == lines
    decreases |lines|
  {
    if |lines| == 1 {
      LinesOfOneLine(lines[0]);
    } else {
      LinesOfJoin(lines[1..]);
      LinesAfterBreak(lines[0], JoinLines(lines[1..]));
      assert [lines[0]] + lines[1..] == lines;
    }
  }

  /** Single-line sources are listed one per line: line k of the list is the
      bullet of source k. */
  lemma SourcesOnePerLine(sources: seq<GroundingSource>)
    requires |sources| > 0
    requires forall i :: 0 <= i < |sources| ==> SingleLine(sources[i])
    ensures |Lines(FormatSources(sources))| == |sources|
    ensures forall k :: 0 <= k < |sources| ==> Lines(FormatSources(sources))[k] == SourceLine(sources[k])
  {
    var lines := seq(|sources|, i requires 0 <= i < |sources| => SourceLine(sources[i]));
    forall i | 0 <= i < |lines|
      ensures NoNewline(lines[i])
    {
      SourceLineIsOneLine(sources[i]);
    }
    LinesOfJoin(lines);
  }

  /** The cover-image URL box: empty for an uploaded or captured image (a
      `data:` URL), the URL itself otherwise. */
  function UrlBoxValue(coverImage: string): (r: string)
    ensures Text.StartsWith(coverImage, "data:") <==> r == "" && coverImage != ""
    ensures !Text.StartsWith(coverImage, "data:") ==> r == coverImage
  {
    if Text.StartsWith(coverImage, "data:") then "" else coverImage
  }

  /** `generateCoverImage()`: without a title nothing is generated; otherwise
      the generated image becomes the cover. */
  function GenerateCoverImage(p: BlogPost, generated: string): (r: BlogPost)
    ensures p.title == "" ==> r == p
    ensures p.title != "" ==> r.coverImage == generated
    ensures forall k :: k != PostFields.CoverImage ==> PostFields.Get(r, k) == PostFields.Get(p, k)
  {
    if p.title == "" then p else HandleChange(p, PostFields.CoverImage, PostFields.Text(generated))
  }

  /** `handleSave()` then reopening the editor on the post's id shows the
      post as saved. */
  lemma SaveThenReopen(st: Storage.LocalStore, p: BlogPost, uuid: string, loadedAt: string)
    ensures OpenEditor(Storage.SavePost(st, p, loadedAt), Some(p.id), uuid, loadedAt).post == p
  {
    Storage.SaveThenGet(st, p, loadedAt);
  }
}

=== FILE: post_fields.dfy ===
/** The properties of a `BlogPost` as keys (`keyof BlogPost`) with the values
    they hold, so that an update of one property can be stated generically. */
module PostFields {
  import opened Wrappers
  import opened Types

  datatype Key =
    | Id | Title | Slug | Content | Excerpt | CoverImage | GalleryImages | Author
    | Category | Tags | Status | PublishedAt | SeoTitle | SeoDescription | Views

  datatype Value =
    | Text(text: string)
    | OptionalText(optionalText: Option<string>)
    | TextList(texts: seq<string>)
    | OptionalTextList(optionalTexts: Option<seq<string>>)
    | StatusValue(status: PostStatus)
    | Number(number: int)

  /** `value` has the type the interface declares for property `k`. */
  predicate Fits(k: Key, value: Value) {
    match k
    case SeoTitle | SeoDescription => value.OptionalText?
    case Tags => value.TextList?
    case GalleryImages => value.OptionalTextList?
    case Status => value.StatusValue?
    case Views => value.Number?
    case _ => value.Text?
  }

  /** `post[k]`. */
  function Get(p: BlogPost, k: Key): (v: Value)
    ensures Fits(k, v)
  {
    match k
    case Id => Text(p.id)
    case Title => Text(p.title)
    case Slug => Text(p.slug)
    case Content => Text(p.content)
    case Excerpt => Text(p.excerpt)
    case CoverImage => Text(p.coverImage)
    case GalleryImages => OptionalTextList(p.galleryImages)
    case Author => Text(p.author)
    case Category => Text(p.category)
    case Tags => TextList(p.tags)
    case Status => StatusValue(p.status)
    case PublishedAt => Text(p.publishedAt)
    case SeoTitle => OptionalText(p.seoTitle)
    case SeoDescription => OptionalText(p.seoDescription)
    case Views => Number(p.views)
  }
}

=== FILE: post_preview.dfy ===
/** The state logic of `pages/PostPreview.tsx`: loading the preview slot,
    following later previews through storage events, the slider, and the
    title fallback. */
module PostPreview {
  import opened Wrappers
  import opened Types
  import Gallery
  import Storage
  import PostEditor

  datatype PreviewView = PreviewView(post: Option<BlogPost>, galleryIndex: nat)

  /** The mount effect: the stored preview, if any, on its first image. */
  function Mount(st: Storage.LocalStore): (r: PreviewView)
    ensures r.post == Storage.GetPreviewPost(st) && r.galleryIndex == 0
    ensures IndexInRange(r)
  {
    PreviewView(Storage.GetPreviewPost(st), 0)
  }

  /** Opening the preview right after the editor stored a post shows that
      post. */
  lemma PreviewShowsEditorPost(st: Storage.LocalStore, p: BlogPost)
    ensures Mount(Storage.SavePreviewPost(st, p)).post == Some(p)
  {
  }

  function PostGallery(v: PreviewView): Option<seq<string>> {
    if v.post.Some? then v.post.value.galleryImages else None
  }

  /** The slide shown is an image of the gallery. */
  predicate IndexInRange(v: PreviewView) {
    v.post.Some? && Gallery.ShowsSlider(v.post.value) ==> v.galleryIndex < |PostGallery(v).value|
  }

  /** The storage listener as written: a new value under the preview key
      replaces the post; any other key, or a removal, is ignored. The slider
      position is left as it was. */
  function OnStorageEventAsWritten(v: PreviewView, key: string, newValue: Option<BlogPost>): (r: PreviewView)
    ensures key == Storage.PreviewKey && newValue.Some? ==> r.post == newValue
    ensures !(key == Storage.PreviewKey && newValue.Some?) ==> r == v
    ensures r.galleryIndex == v.galleryIndex
  {
    if key == Storage.PreviewKey && newValue.Some? then v.(post := newValue) else v
  }

  function PostWithGallery(images: seq<string>): BlogPost {
    BlogPost("p", "", "", "", "", "", Some(images), "Admin", "", [], Draft, "", None, None, 0)
  }

  /** Viewing the third of three images, a new preview with a single image
      leaves the slider pointing past the end of the gallery. */
  lemma StaleIndexAfterPreviewUpdate()
    ensures var v := PreviewView(Some(PostWithGallery(["a", "b", "c"])), 2);
      && IndexInRange(v)
      && !IndexInRange(OnStorageEventAsWritten(v, Storage.PreviewKey, Some(PostWithGallery(["a"]))))
  {
  }

  /** The storage listener with the slider reset to the first image when the
      post is replaced, as the public post view does when its post changes. */
  function OnStorageEvent(v: PreviewView, key: string, newValue: Option<BlogPost>): (r: PreviewView)
    ensures key == Storage.PreviewKey && newValue.Some? ==> r == PreviewView(newValue, 0)
    ensures !(key == Storage.PreviewKey && newValue.Some?) ==> r == v
    ensures IndexInRange(v) ==> IndexInRange(r)
  {
    if key == Storage.PreviewKey && newValue.Some? then PreviewView(newValue, 0) else v
  }

  /** Previewing a new post before giving it a title shows 'Untitled Post'. */
  lemma NewPostPreviewIsUntitled(st: Storage.LocalStore, uuid: string, loadedAt: string)
    ensures var draft := PostEditor.OpenEditor(st, None, uuid, loadedAt).post;
      var v := Mount(Storage.SavePreviewPost(st, draft));
      v.post.Some? && DisplayTitle(v.post.value) == "Untitled Post"
  {
  }

  /** `nextSlide()`: no-op without a post or a gallery. */
  function NextSlide(v: PreviewView): (r: PreviewView)
    requires Gallery.Navigable(PostGallery(v))
    ensures r.post == v.post
    ensures IndexInRange(r)
    ensures PostGallery(v).None? ==> r == v
    ensures PostGallery(v).Some? && v.galleryIndex + 1 < |PostGallery(v).value| ==> r.galleryIndex == v.galleryIndex + 1
    ensures PostGallery(v).Some? && v.galleryIndex + 1 == |PostGallery(v).value| ==> r.galleryIndex == 0
    ensures PostGallery(v).Some? ==>
      r.galleryIndex + |PostGallery(v).value| * ((v.galleryIndex + 1) / |PostGallery(v).value|) == v.galleryIndex + 1
  {
    v.(galleryIndex := Gallery.NextSlide(PostGallery(v), v.galleryIndex))
  }

  /** `prevSlide()`: no-op without a post or a gallery. */
  function PrevSlide(v: PreviewView): (r: PreviewView)
    requires Gallery.Navigable(PostGallery(v))
    ensures r.post == v.post
    ensures IndexInRange(r)
    ensures PostGallery(v).None? ==> r == v
    ensures PostGallery(v).Some? && 0 < v.galleryIndex <= |PostGallery(v).value| ==> r.galleryIndex == v.galleryIndex - 1
    ensures PostGallery(v).Some? && v.galleryIndex == 0 ==> r.galleryIndex == |PostGallery(v).value| - 1
    ensures PostGallery(v).Some? ==>
      r.galleryIndex + |PostGallery(v).value| * ((v.galleryIndex + |PostGallery(v).value| - 1) / |PostGallery(v).value|)
        == v.galleryIndex + |PostGallery(v).value| - 1
  {
    v.(galleryIndex := Gallery.PrevSlide(PostGallery(v), v.galleryIndex))
  }

  /** The heading: the title, or 'Untitled Post' for an empty one. */
  function DisplayTitle(p: BlogPost): (r: string)
    ensures r != ""
    ensures p.title != "" ==> r == p.title
    ensures p.title == "" ==> r == "Untitled Post"
  {
    if p.title == "" then "Untitled Post" else p.title
  }
}

=== FILE: public_blog.dfy ===
/** The state logic of `pages/PublicBlog.tsx`: the listed posts, the search
    filter, the selected post's slider, and the featured posts. */
module PublicBlog {
  import opened Wrappers
  import opened Types
  import Seqs
  import Text
  import Gallery

  /** `p.status === 'PUBLISHED' || true`: the status test is disabled. */
  function StatusFilter(p: BlogPost): bool {
    p.status == Published || true
  }

  /** The posts the page lists: every stored post, drafts and scheduled
      posts included. */
  function VisiblePosts(posts: seq<BlogPost>): (r: seq<BlogPost>)
    ensures r == posts
  {
    Seqs.FilterAll(posts, StatusFilter);
    Seqs.Filter(posts, StatusFilter)
  }

  /** The search test: the lowercased title or excerpt contains the
      lowercased term. */
  predicate Matches(term: string, p: BlogPost) {
    Text.Contains(Text.Lower(p.title), Text.Lower(term)) ||
    Text.Contains(Text.Lower(p.excerpt), Text.Lower(term))
  }

  function Matcher(term: string): BlogPost -> bool {
    p => Matches(term, p)
  }

  /** `filteredPosts`: the posts matching the term, each as often as it
      occurs, in their original order. An empty term keeps them all. */
  function FilteredPosts(posts: seq<BlogPost>, term: string): (r: seq<BlogPost>)
    ensures Seqs.IsSubsequence(r, posts)
    ensures forall p :: p in r <==> p in posts && Matches(term, p)
    ensures forall p :: multiset(r)[p] == if Matches(term, p) then multiset(posts)[p] else 0
    ensures term == "" ==> r == posts
  {
    if term == "" then
      forall p: BlogPost ensures Matches(term, p) {
        Text.ContainsEmpty(Text.Lower(p.title));
      }
      Seqs.FilterAll(posts, Matcher(term));
      Seqs.Filter(posts, Matcher(term))
    else
      Seqs.Filter(posts, Matcher(term))
  }

  /** The page state that the slider depends on. */
  datatype BlogView = BlogView(selected: Option<BlogPost>, galleryIndex: nat)

  function SelectedGallery(v: BlogView): Option<seq<string>> {
    if v.selected.Some? then v.selected.value.galleryImages else None
  }

  /** The slide shown is an image of the selected post's gallery. */
  predicate IndexInRange(v: BlogView) {
    v.selected.Some? && Gallery.ShowsSlider(v.selected.value) ==> v.galleryIndex < |SelectedGallery(v).value|
  }

  /** Opening a post (or going back with `None`): the effect on
      `selectedPost` resets the slider to the first image whenever the
      selection changes. */
  function SelectPost(v: BlogView, post: Option<BlogPost>): (r: BlogView)
    ensures r.selected == post
    ensures post != v.selected ==> r.galleryIndex == 0
    ensures IndexInRange(v) ==> IndexInRange(r)
  {
    if post == v.selected then v else BlogView(post, 0)
  }

  /** `nextSlide()` on the selected post's gallery. */
  function NextSlide(v: BlogView): (r: BlogView)
    requires Gallery.Navigable(SelectedGallery(v))
    ensures r.selected == v.selected
    ensures IndexInRange(r)
    ensures SelectedGallery(v).None? ==> r == v
    ensures SelectedGallery(v).Some? && v.galleryIndex + 1 < |SelectedGallery(v).value| ==> r.galleryIndex == v.galleryIndex + 1
    ensures SelectedGallery(v).Some? && v.galleryIndex + 1 == |SelectedGallery(v).value| ==> r.galleryIndex == 0
    ensures SelectedGallery(v).Some? ==>
      r.galleryIndex + |SelectedGallery(v).value| * ((v.galleryIndex + 1) / |SelectedGallery(v).value|) == v.galleryIndex + 1
  {
    v.(galleryIndex := Gallery.NextSlide(SelectedGallery(v), v.galleryIndex))
  }

  /** `prevSlide()` on the selected post's gallery. */
  function PrevSlide(v: BlogView): (r: BlogView)
    requires Gallery.Navigable(SelectedGallery(v))
    ensures r.selected == v.selected
    ensures IndexInRange(r)
    ensures SelectedGallery(v).None? ==> r == v
    ensures SelectedGallery(v).Some? && 0 < v.galleryIndex <= |SelectedGallery(v).value| ==> r.galleryIndex == v.galleryIndex - 1
    ensures SelectedGallery(v).Some? && v.galleryIndex == 0 ==> r.galleryIndex == |SelectedGallery(v).value| - 1
    ensures SelectedGallery(v).Some? ==>
      r.galleryIndex + |SelectedGallery(v).value| * ((v.galleryIndex + |SelectedGallery(v).value| - 1) / |SelectedGallery(v).value|)
        == v.galleryIndex + |SelectedGallery(v).value| - 1
  {
    v.(galleryIndex := Gallery.PrevSlide(SelectedGallery(v), v.galleryIndex))
  }

  /** The hero slider: the first three posts, or all of them when fewer. */
  function FeaturedPosts(posts: seq<BlogPost>): (r: seq<BlogPost>)
    ensures |r| == if |posts| < 3 then |posts| else 3
    ensures r == posts[..|r|]
  {
    Seqs.Take(posts, 3)
  }
}

=== FILE: seqs.dfy ===
/** Sequence operations shared by the pages: `Array.prototype.filter`,
    filtering by index, and `slice(0, n)`. */
module Seqs {

  /** `a` is obtained from `b` by deleting elements, keeping the order of the rest. */
  predicate IsSubsequence<T(==)>(a: seq<T>, b: seq<T>)
    decreases |b|
  {
    |a| == 0 ||
    (|b| > 0 && ((a[0] == b[0] && IsSubsequence(a[1..], b[1..])) || IsSubsequence(a, b[1..])))
  }

  /** `s.filter(keep)`: the elements satisfying `keep`, each kept as often as it
      occurs, in their original order. */
  function Filter<T(==,!new)>(s: seq<T>, keep: T -> bool): (r: seq<T>)
    ensures |r| <= |s|
    ensures forall x :: x in r <==> x in s && keep(x)
    ensures forall x :: multiset(r)[x] == if keep(x) then multiset(s)[x] else 0
    ensures IsSubsequence(r, s)
  {
    if |s| == 0 then []
    else
      assert s == [s[0]] + s[1..];
      if keep(s[0]) then [s[0]] + Filter(s[1..], keep)
      else Filter(s[1..], keep)
  }

  /** Filtering twice with the same predicate is filtering once. */
  lemma {:induction false} FilterIdempotent<T(!new)>(s: seq<T>, keep: T -> bool)
    ensures Filter(Filter(s, keep), keep) == Filter(s, keep)
  {
    if |s| > 0 {
      FilterIdempotent(s[1..], keep);
      if keep(s[0]) {
        var t := Filter(s[1..], keep);
        assert ([s[0]] + t)[1..] == t;
      }
    }
  }

  /** Elements satisfying two disjoint predicates are counted apart: together
      they are never more than the whole sequence. */
  lemma {:induction false} FilterDisjointCounts<T(!new)>(s: seq<T>, p: T -> bool, q: T -> bool)
    requires forall x :: !(p(x) && q(x))
    ensures |Filter(s, p)| + |Filter(s, q)| == |Filter(s, x => p(x) || q(x))|
  {
    if |s| > 0 {
      FilterDisjointCounts(s[1..], p, q);
    }
  }

  /** A predicate that holds of every element keeps the whole sequence. */
  lemma {:induction false} FilterAll<T(!new)>(s: seq<T>, keep: T -> bool)
    requires forall i :: 0 <= i < |s| ==> keep(s[i])
    ensures Filter(s, keep) == s
  {
    if |s| > 0 {
      FilterAll(s[1..], keep);
      assert s == [s[0]] + s[1..];
    }
  }

  /** `s.filter((_, i) => i !== index)`: drops the element at `index`, if any. */
  function RemoveAt<T>(s: seq<T>, index: int): (r: seq<T>)
    ensures 0 <= index < |s| ==> r == s[..index] + s[index + 1..]
    ensures !(0 <= index < |s|) ==> r == s
    decreases |s|
  {
    if |s| == 0 then []
    else
      var rest := RemoveAt(s[1..], index - 1);
      assert 0 < index < |s| ==> s[..index] + s[index + 1..] == [s[0]] + (s[1..][..index - 1] + s[1..][index..]);
      assert s == [s[0]] + s[1..];
      (if index == 0 then [] else [s[0]]) + rest
  }

  /** `s.slice(0, n)` for a non-negative `n`: the first `min(n, |s|)` elements. */
  function Take<T>(s: seq<T>, n: nat): (r: seq<T>)
    ensures |r| == if n <= |s| then n else |s|
    ensures forall i :: 0 <= i < |r| ==> r[i] == s[i]
  {
    if n <= |s| then s[..n] else s
  }
}

=== FILE: settings_fields.dfy ===
/** The properties of `SiteSettings` as keys (`keyof SiteSettings`) with the
    values they hold, and the four social networks of `socialLinks`. */
module SettingsFields {
  import opened Types

  datatype Key =
    | SiteName | SiteDescription | LogoUrl | FaviconUrl | PrimaryColor
    | GoogleAnalyticsId | GoogleAdSenseCode | AboutContent | ContactContent
    | ContactEmail | FooterText | FooterExploreLinks | FooterLegalLinks | Socials

  datatype Value =
    | Text(text: string)
    | Links(links: seq<FooterLink>)
    | Social(social: SocialLinks)

  datatype Network = Twitter | Facebook | Linkedin | Instagram

  /** `value` has the type the interface declares for property `k`. */
  predicate Fits(k: Key, value: Value) {
    match k
    case FooterExploreLinks | FooterLegalLinks => value.Links?
    case Socials => value.Social?
    case _ => value.Text?
  }

  /** `settings[k]`. */
  function Get(s: SiteSettings, k: Key): (v: Value)
    ensures Fits(k, v)
  {
    match k
    case SiteName => Text(s.siteName)
    case SiteDescription => Text(s.siteDescription)
    case LogoUrl => Text(s.logoUrl)
    case FaviconUrl => Text(s.faviconUrl)
    case PrimaryColor => Text(s.primaryColor)
    case GoogleAnalyticsId => Text(s.googleAnalyticsId)
    case GoogleAdSenseCode => Text(s.googleAdSenseCode)
    case AboutContent => Text(s.aboutContent)
    case ContactContent => Text(s.contactContent)
    case ContactEmail => Text(s.contactEmail)
    case FooterText => Text(s.footerText)
    case FooterExploreLinks => Links(s.footerExploreLinks)
    case FooterLegalLinks => Links(s.footerLegalLinks)
    case Socials => Social(s.socialLinks)
  }

  /** `socialLinks[n]`. */
  function GetSocial(links: SocialLinks, n: Network): string {
    match n
    case Twitter => links.twitter
    case Facebook => links.facebook
    case Linkedin => links.linkedin
    case Instagram => links.instagram
  }
}

=== FILE: settings_page.dfy ===
/** The pure state updates of `pages/Settings.tsx`: editing one property,
    one social network, and the two footer-link lists. */
module SettingsPage {
  import opened Types
  import Seqs
  import SettingsFields
  import Storage

  datatype Section = Explore | Legal
  datatype LinkField = Label | Url

  /** `settings[section]`. */
  function LinksOf(s: SiteSettings, section: Section): seq<FooterLink> {
    match section
    case Explore => s.footerExploreLinks
    case Legal => s.footerLegalLinks
  }

  function KeyOf(section: Section): SettingsFields.Key {
    match section
    case Explore => SettingsFields.FooterExploreLinks
    case Legal => SettingsFields.FooterLegalLinks
  }

  /** `handleChange(field, value)`: property `k` becomes `value`, every other
      property keeps its value. */
  function HandleChange(s: SiteSettings, k: SettingsFields.Key, value: SettingsFields.Value): (r: SiteSettings)
    requires SettingsFields.Fits(k, value)
    ensures SettingsFields.Get(r, k) == value
    ensures forall k' :: k' != k ==> SettingsFields.Get(r, k') == SettingsFields.Get(s, k')
  {
    match k
    case SiteName => s.(siteName := value.text)
    case SiteDescription => s.(siteDescription := value.text)
    case LogoUrl => s.(logoUrl := value.text)
    case FaviconUrl => s.(faviconUrl := value.text)
    case PrimaryColor => s.(primaryColor := value.text)
    case GoogleAnalyticsId => s.(googleAnalyticsId := value.text)
    case GoogleAdSenseCode => s.(googleAdSenseCode := value.text)
    case AboutContent => s.(aboutContent := value.text)
    case ContactContent => s.(contactContent := value.text)
    case ContactEmail => s.(contactEmail := value.text)
    case FooterText => s.(footerText := value.text)
    case FooterExploreLinks => s.(footerExploreLinks := value.links)
    case FooterLegalLinks => s.(footerLegalLinks := value.links)
    case Socials => s.(socialLinks := value.social)
  }

  /** `handleSocialChange(network, value)`: one network's link changes; the
      other networks and every other property are untouched. */
  function HandleSocialChange(s: SiteSettings, network: SettingsFields.Network, value: string): (r: SiteSettings)
    ensures SettingsFields.GetSocial(r.socialLinks, network) == value
    ensures forall n :: n != network ==> SettingsFields.GetSocial(r.socialLinks, n) == SettingsFields.GetSocial(s.socialLinks, n)
    ensures forall k :: k != SettingsFields.Socials ==> SettingsFields.Get(r, k) == SettingsFields.Get(s, k)
  {
    var links := s.socialLinks;
    var updated := match network
      case Twitter => links.(twitter := value)
      case Facebook => links.(facebook := value)
      case Linkedin => links.(linkedin := value)
      case Instagram => links.(instagram := value);
    HandleChange(s, SettingsFields.Socials, SettingsFields.Social(updated))
  }

  function SetLinkField(link: FooterLink, field: LinkField, value: string): FooterLink {
    match field
    case Label => link.(labelText := value)
    case Url => link.(url := value)
  }

  /** `handleLinkChange(section, index, field, value)`: one field of one link
      changes; the list keeps its length, the link its other field, the other
      links and the other section are untouched. */
  function HandleLinkChange(s: SiteSettings, section: Section, index: int, field: LinkField, value: string): (r: SiteSettings)
    requires 0 <= index < |LinksOf(s, section)|
    ensures var before := LinksOf(s, section); var after := LinksOf(r, section);
      && |after| == |before|
      && (forall j :: 0 <= j < |before| && j != index ==> after[j] == before[j])
      && (field == Label ==> after[index].labelText == value && after[index].url == before[index].url)
      && (field == Url ==> after[index].url == value && after[index].labelText == before[index].labelText)
    ensures forall k :: k != KeyOf(section) ==> SettingsFields.Get(r, k) == SettingsFields.Get(s, k)
  {
    var links := LinksOf(s, section);
    HandleChange(s, KeyOf(section), SettingsFields.Links(links[index := SetLinkField(links[index], field, value)]))
  }

  const NewLink := FooterLink("New Link", "#")

  /** `addLink(section)`: a placeholder link at the end of the section. */
  function AddLink(s: SiteSettings, section: Section): (r: SiteSettings)
    ensures var before := LinksOf(s, section); var after := LinksOf(r, section);
      && |after| == |before| + 1
      && after[..|before|] == before
      && after[|before|] == NewLink
    ensures forall k :: k != KeyOf(section) ==> SettingsFields.Get(r, k) == SettingsFields.Get(s, k)
  {
    HandleChange(s, KeyOf(section), SettingsFields.Links(LinksOf(s, section) + [NewLink]))
  }

  /** `removeLink(section, index)`: exactly the link at `index` goes, the rest
      keep their order; an index outside the list changes nothing. */
  function RemoveLink(s: SiteSettings, section: Section, index: int): (r: SiteSettings)
    ensures var before := LinksOf(s, section); var after := LinksOf(r, section);
      && (0 <= index < |before| ==> |after| == |before| - 1 && after == before[..index] + before[index + 1..])
      && (!(0 <= index < |before|) ==> r == s)
    ensures forall k :: k != KeyOf(section) ==> SettingsFields.Get(r, k) == SettingsFields.Get(s, k)
  {
    var removed := Seqs.RemoveAt(LinksOf(s, section), index);
    HandleChange(s, KeyOf(section), SettingsFields.Links(removed))
  }

  /** Editing one footer section never touches the other one. */
  lemma SectionsIndependent(s: SiteSettings, index: int, field: LinkField, value: string)
    ensures AddLink(s, Explore).footerLegalLinks == s.footerLegalLinks
    ensures AddLink(s, Legal).footerExploreLinks == s.footerExploreLinks
    ensures RemoveLink(s, Explore, index).footerLegalLinks == s.footerLegalLinks
    ensures RemoveLink(s, Legal, index).footerExploreLinks == s.footerExploreLinks
    ensures 0 <= index < |s.footerExploreLinks| ==> HandleLinkChange(s, Explore, index, field, value).footerLegalLinks == s.footerLegalLinks
    ensures 0 <= index < |s.footerLegalLinks| ==> HandleLinkChange(s, Legal, index, field, value).footerExploreLinks == s.footerExploreLinks
  {
  }

  /** Adding a link and then removing the last one restores the settings. */
  lemma AddThenRemoveLast(s: SiteSettings, section: Section)
    ensures RemoveLink(AddLink(s, section), section, |LinksOf(s, section)|) == s
  {
  }
}

=== FILE: storage.dfy ===
/** `services/storage.ts`: posts, site settings and the preview slot kept in
    browser local storage. The JSON text under each key is abstracted to the
    typed value it encodes; a missing key is `None`. */
module Storage {
  import opened Wrappers
  import opened Types
  import Seqs
  import SettingsFields

  const PostsKey: string := "bloggetway_posts"
  const SettingsKey: string := "bloggetway_settings"
  const PreviewKey: string := "bloggetway_preview_post"

  /** Stored settings as parsed from JSON: data written by an older version
      may lack any property. */
  datatype StoredSettings = StoredSettings(
    siteName: Option<string>,
    siteDescription: Option<string>,
    logoUrl: Option<string>,
    faviconUrl: Option<string>,
    primaryColor: Option<string>,
    googleAnalyticsId: Option<string>,
    googleAdSenseCode: Option<string>,
    aboutContent: Option<string>,
    contactContent: Option<string>,
    contactEmail: Option<string>,
    footerText: Option<string>,
    footerExploreLinks: Option<seq<FooterLink>>,
    footerLegalLinks: Option<seq<FooterLink>>,
    socialLinks: Option<SocialLinks>)

  /** The three keys of local storage this service owns. */
  datatype LocalStore = LocalStore(
    posts: Option<seq<BlogPost>>,
    settings: Option<StoredSettings>,
    preview: Option<BlogPost>)

  const EmptyStore := LocalStore(None, None, None)

  const AiPostContent: string :=
    "Artificial Intelligence is revolutionizing how we create content. From drafting blog posts to generating realistic images, tools like Gemini are changing the game...\n\n## Why AI Matters\nIt allows for faster iteration and deeper research capabilities."
  const SeoPostContent: string :=
    "Search Engine Optimization is critical for driving traffic. Here are 10 tips to improve your ranking..."

  /** The two seed posts. `loadedAt` is the ISO time at which the module was
      loaded, the publication date of the first post. */
  function InitialPosts(loadedAt: string): seq<BlogPost> {
    [ BlogPost(
        "1",
        "The Future of AI in Content Creation",
        "future-of-ai-content",
        AiPostContent,
        "Explore how AI tools are reshaping the digital landscape.",
        "https://picsum.photos/seed/ai/800/400",
        Some(["https://picsum.photos/seed/tech1/800/400",
              "https://picsum.photos/seed/tech2/800/400",
              "https://picsum.photos/seed/tech3/800/400"]),
        "Admin",
        "Technology",
        ["AI", "Future", "Tech"],
        Published,
        loadedAt,
        None,
        None,
        1250),
      BlogPost(
        "2",
        "10 Tips for Better SEO",
        "10-tips-better-seo",
        SeoPostContent,
        "Boost your site ranking with these actionable tips.",
        "https://picsum.photos/seed/seo/800/400",
        Some([]),
        "Admin",
        "Marketing",
        ["SEO", "Growth"],
        Draft,
        "",
        None,
        None,
        0) ]
  }

  const InitialSettings: SiteSettings := SiteSettings(
    "BlogGetWay",
    "Your gateway to intelligent blogging.",
    "",
    "",
    "#3b82f6",
    "",
    "",
    "Welcome to BlogGetWay. We are dedicated to providing the best content powered by artificial intelligence. Our mission is to share knowledge and inspire creativity through technology.",
    "Have questions or want to work together? We would love to hear from you. Reach out to us using the email below.",
    "hello@bloggetway.com",
    "All rights reserved.",
    [ FooterLink("Home", "/"),
      FooterLink("Latest Articles", "/blog"),
      FooterLink("About Us", "/about"),
      FooterLink("Contact", "/contact") ],
    [ FooterLink("Privacy Policy", "#"),
      FooterLink("Terms of Service", "#"),
      FooterLink("Cookie Policy", "#") ],
    SocialLinks("#", "#", "#", "#"))

  datatype PostsRead = PostsRead(posts: seq<BlogPost>, store: LocalStore)
  datatype PostRead = PostRead(post: Option<BlogPost>, store: LocalStore)

  /** `getPosts()`: the stored list; on first use the seed posts are written
      and returned. A stored empty list is kept. */
  function GetPosts(st: LocalStore, loadedAt: string): (r: PostsRead)
    ensures st.posts.None? ==> r.posts == InitialPosts(loadedAt)
    ensures st.posts.Some? ==> r.posts == st.posts.value && r.store == st
    ensures r.store == st.(posts := Some(r.posts))
  {
    match st.posts
    case None => PostsRead(InitialPosts(loadedAt), st.(posts := Some(InitialPosts(loadedAt))))
    case Some(posts) => PostsRead(posts, st)
  }

  /** `posts.findIndex(p => p.id === id)`, with `None` for -1. */
  function FindIndex(posts: seq<BlogPost>, id: string): (r: Option<nat>)
    ensures r.Some? ==> r.value < |posts| && posts[r.value].id == id
    ensures r.Some? ==> forall j :: 0 <= j < r.value ==> posts[j].id != id
    ensures r.None? ==> forall j :: 0 <= j < |posts| ==> posts[j].id != id
  {
    if |posts| == 0 then None
    else if posts[0].id == id then Some(0)
    else
      match FindIndex(posts[1..], id)
      case None => None
      case Some(i) => Some(i + 1)
  }

  /** `getPost(id)`: the first post with that id, if any. Reading may seed
      the store. */
  function GetPost(st: LocalStore, id: string, loadedAt: string): (r: PostRead)
    ensures r.store == GetPosts(st, loadedAt).store
    ensures var posts := GetPosts(st, loadedAt).posts;
      r.post.None? <==> forall j :: 0 <= j < |posts| ==> posts[j].id != id
    ensures var posts := GetPosts(st, loadedAt).posts;
      forall i :: 0 <= i < |posts| && posts[i].id == id && (forall j :: 0 <= j < i ==> posts[j].id != id) ==>
        r.post == Some(posts[i])
  {
    var read := GetPosts(st, loadedAt);
    match FindIndex(read.posts, id)
    case None => PostRead(None, read.store)
    case Some(i) => PostRead(Some(read.posts[i]), read.store)
  }

  /** `savePost(post)`: replaces the first post with the same id in place, or
      appends the post when its id is new. */
  function SavePost(st: LocalStore, post: BlogPost, loadedAt: string): (r: LocalStore)
    ensures r.settings == st.settings && r.preview == st.preview && r.posts.Some?
    ensures var before := GetPosts(st, loadedAt).posts;
      (forall j :: 0 <= j < |before| ==> before[j].id != post.id) ==> r.posts.value == before + [post]
    ensures var before := GetPosts(st, loadedAt).posts;
      forall i :: 0 <= i < |before| && before[i].id == post.id && (forall j :: 0 <= j < i ==> before[j].id != post.id) ==>
        && |r.posts.value| == |before|
        && r.posts.value[i] == post
        && forall j :: 0 <= j < |before| && j != i ==> r.posts.value[j] == before[j]
  {
    var read := GetPosts(st, loadedAt);
    var posts := match FindIndex(read.posts, post.id)
      case Some(i) => read.posts[i := post]
      case None => read.posts + [post];
    read.store.(posts := Some(posts))
  }

  /** After saving a post, looking up its id finds exactly that post. */
  lemma SaveThenGet(st: LocalStore, post: BlogPost, loadedAt: string)
    ensures GetPost(SavePost(st, post, loadedAt), post.id, loadedAt).post == Some(post)
  {
    var before := GetPosts(st, loadedAt).posts;
    var after := SavePost(st, post, loadedAt).posts.value;
    match FindIndex(before, post.id)
    case None =>
      assert after == before + [post];
      assert after[|before|] == post;
    case Some(i) =>
      assert after[i] == post;
  }

  function OtherId(id: string): BlogPost -> bool {
    (p: BlogPost) => p.id != id
  }

  /** `deletePost(id)`: keeps exactly the posts with another id, in order. */
  function DeletePost(st: LocalStore, id: string, loadedAt: string): (r: LocalStore)
    ensures r.settings == st.settings && r.preview == st.preview && r.posts.Some?
    ensures var before := GetPosts(st, loadedAt).posts;
      && (forall p :: p in r.posts.value <==> p in before && p.id != id)
      && Seqs.IsSubsequence(r.posts.value, before)
      && forall p: BlogPost :: p.id != id ==> multiset(r.posts.value)[p] == multiset(before)[p]
  {
    var read := GetPosts(st, loadedAt);
    read.store.(posts := Some(Seqs.Filter(read.posts, OtherId(id))))
  }

  /** Deleting the same id twice is deleting it once. */
  lemma DeleteIdempotent(st: LocalStore, id: string, loadedAt: string)
    ensures DeletePost(DeletePost(st, id, loadedAt), id, loadedAt) == DeletePost(st, id, loadedAt)
  {
    Seqs.FilterIdempotent(GetPosts(st, loadedAt).posts, OtherId(id));
  }

  /** The stored value of settings property `k`, if the stored data has it. */
  function StoredField(ss: StoredSettings, k: SettingsFields.Key): Option<SettingsFields.Value> {
    match k
    case SiteName => if ss.siteName.Some? then Some(SettingsFields.Text(ss.siteName.value)) else None
    case SiteDescription => if ss.siteDescription.Some? then Some(SettingsFields.Text(ss.siteDescription.value)) else None
    case LogoUrl => if ss.logoUrl.Some? then Some(SettingsFields.Text(ss.logoUrl.value)) else None
    case FaviconUrl => if ss.faviconUrl.Some? then Some(SettingsFields.Text(ss.faviconUrl.value)) else None
    case PrimaryColor => if ss.primaryColor.Some? then Some(SettingsFields.Text(ss.primaryColor.value)) else None
    case GoogleAnalyticsId => if ss.googleAnalyticsId.Some? then Some(SettingsFields.Text(ss.googleAnalyticsId.value)) else None
    case GoogleAdSenseCode => if ss.googleAdSenseCode.Some? then Some(SettingsFields.Text(ss.googleAdSenseCode.value)) else None
    case AboutContent => if ss.aboutContent.Some? then Some(SettingsFields.Text(ss.aboutContent.value)) else None
    case ContactContent => if ss.contactContent.Some? then Some(SettingsFields.Text(ss.contactContent.value)) else None
    case ContactEmail => if ss.contactEmail.Some? then Some(SettingsFields.Text(ss.contactEmail.value)) else None
    case FooterText => if ss.footerText.Some? then Some(SettingsFields.Text(ss.footerText.value)) else None
    case FooterExploreLinks => if ss.footerExploreLinks.Some? then Some(SettingsFields.Links(ss.footerExploreLinks.value)) else None
    case FooterLegalLinks => if ss.footerLegalLinks.Some? then Some(SettingsFields.Links(ss.footerLegalLinks.value)) else None
    case Socials => if ss.socialLinks.Some? then Some(SettingsFields.Social(ss.socialLinks.value)) else None
  }

  /** `getSettings()`: the defaults when nothing is stored; otherwise every
      stored property overrides its default and every missing one falls back
      to it. A stored footer list, even an empty one, is kept. */
  function GetSettings(st: LocalStore): (r: SiteSettings)
    ensures st.settings.None? ==> r == InitialSettings
    ensures st.settings.Some? ==> forall k ::
      SettingsFields.Get(r, k) == StoredField(st.settings.value, k).GetOr(SettingsFields.Get(InitialSettings, k))
  {
    match st.settings
    case None => InitialSettings
    case Some(ss) =>
      SiteSettings(
        ss.siteName.GetOr(InitialSettings.siteName),
        ss.siteDescription.GetOr(InitialSettings.siteDescription),
        ss.logoUrl.GetOr(InitialSettings.logoUrl),
        ss.faviconUrl.GetOr(InitialSettings.faviconUrl),
        ss.primaryColor.GetOr(InitialSettings.primaryColor),
        ss.googleAnalyticsId.GetOr(InitialSettings.googleAnalyticsId),
        ss.googleAdSenseCode.GetOr(InitialSettings.googleAdSenseCode),
        ss.aboutContent.GetOr(InitialSettings.aboutContent),
        ss.contactContent.GetOr(InitialSettings.contactContent),
        ss.contactEmail.GetOr(InitialSettings.contactEmail),
        ss.footerText.GetOr(InitialSettings.footerText),
        ss.footerExploreLinks.GetOr(InitialSettings.footerExploreLinks),
        ss.footerLegalLinks.GetOr(InitialSettings.footerLegalLinks),
        ss.socialLinks.GetOr(InitialSettings.socialLinks))
  }

  /** A stored empty footer list is shown empty, not replaced by the defaults;
      only a missing one falls back. */
  lemma EmptyStoredLinksKept(st: LocalStore)
    requires st.settings.Some?
    ensures st.settings.value.footerExploreLinks == Some([]) ==> GetSettings(st).footerExploreLinks == []
    ensures st.settings.value.footerExploreLinks.None? ==> GetSettings(st).footerExploreLinks == InitialSettings.footerExploreLinks
    ensures st.settings.value.footerLegalLinks == Some([]) ==> GetSettings(st).footerLegalLinks == []
    ensures st.settings.value.footerLegalLinks.None? ==> GetSettings(st).footerLegalLinks == InitialSettings.footerLegalLinks
  {
  }

  /** `saveSettings(settings)`: every property is written. */
  function SaveSettings(st: LocalStore, s: SiteSettings): (r: LocalStore)
    ensures r.posts == st.posts && r.preview == st.preview
    ensures r.settings.Some? && forall k :: StoredField(r.settings.value, k) == Some(SettingsFields.Get(s, k))
  {
    st.(settings := Some(StoredSettings(
      Some(s.siteName), Some(s.siteDescription), Some(s.logoUrl), Some(s.faviconUrl),
      Some(s.primaryColor), Some(s.googleAnalyticsId), Some(s.googleAdSenseCode),
      Some(s.aboutContent), Some(s.contactContent), Some(s.contactEmail), Some(s.footerText),
      Some(s.footerExploreLinks), Some(s.footerLegalLinks), Some(s.socialLinks))))
  }

  /** Settings read back after a save are the settings saved. */
  lemma SaveSettingsRoundTrip(st: LocalStore, s: SiteSettings)
    ensures GetSettings(SaveSettings(st, s)) == s
  {
  }

  /** `savePreviewPost(post)`. */
  function SavePreviewPost(st: LocalStore, post: BlogPost): (r: LocalStore)
    ensures r.posts == st.posts && r.settings == st.settings
    ensures GetPreviewPost(r) == Some(post)
  {
    st.(preview := Some(post))
  }

  /** `getPreviewPost()`: the stored preview, or nothing (`null`). */
  function GetPreviewPost(st: LocalStore): (r: Option<BlogPost>)
    ensures st.preview.None? ==> r.None?
    ensures st.preview.Some? ==> r == Some(st.preview.value)
  {
    st.preview
  }
}

=== FILE: text.dfy ===
/** The string primitives the pages rely on: `toLowerCase`, `includes` and
    `startsWith`. Lower-casing is modelled on ASCII letters only. */
module Text {

  function LowerChar(c: char): char {
    if 'A' <= c <= 'Z' then (c as int + 32) as char else c
  }

  /** `s.toLowerCase()`, ASCII letters only. */
  function Lower(s: string): (r: string)
    ensures |r| == |s|
    ensures forall i :: 0 <= i < |s| ==> r[i] == LowerChar(s[i])
  {
    seq(|s|, i requires 0 <= i < |s| => LowerChar(s[i]))
  }

  predicate StartsWith(s: string, prefix: string) {
    |prefix| <= |s| && s[..|prefix|] == prefix
  }

  /** `hay.includes(needle)`: `needle` occurs at some position of `hay`. */
  predicate Contains(hay: string, needle: string) {
    exists i :: 0 <= i <= |hay| && StartsWith(hay[i..], needle)
  }

  /** Every string includes the empty string. */
  lemma ContainsEmpty(hay: string)
    ensures Contains(hay, "")
  {
    assert StartsWith(hay[0..], "");
  }
}

=== FILE: types.dfy ===
/** The records of `types.ts`: blog posts, footer links and site settings.
    Optional TypeScript properties (`galleryImages?`, `seoTitle?`, ...) are
    `Option`s; `number` is an unbounded `int`. */
module Types {
  import opened Wrappers

  datatype PostStatus = Draft | Published | Scheduled

  datatype BlogPost = BlogPost(
    id: string,
    title: string,
    slug: string,
    content: string,
    excerpt: string,
    coverImage: string,
    galleryImages: Option<seq<string>>,
    author: string,
    category: string,
    tags: seq<string>,
    status: PostStatus,
    publishedAt: string,
    seoTitle: Option<string>,
    seoDescription: Option<string>,
    views: int)

  /** A footer link; `labelText` is the source's `label` (a Dafny keyword). */
  datatype FooterLink = FooterLink(labelText: string, url: string)

  datatype SocialLinks = SocialLinks(twitter: string, facebook: string, linkedin: string, instagram: string)

  datatype SiteSettings = SiteSettings(
    siteName: string,
    siteDescription: string,
    logoUrl: string,
    faviconUrl: string,
    primaryColor: string,
    googleAnalyticsId: string,
    googleAdSenseCode: string,
    aboutContent: string,
    contactContent: string,
    contactEmail: string,
    footerText: string,
    footerExploreLinks: seq<FooterLink>,
    footerLegalLinks: seq<FooterLink>,
    socialLinks: SocialLinks)

  /** The gallery as the pages read it: `post.galleryImages || []`. */
  function Gallery(p: BlogPost): seq<string> {
    p.galleryImages.GetOr([])
  }
}

=== FILE: wrappers.dfy ===
/** The optional value used wherever the source has `undefined`, `null` or a
    missing local-storage key. */
module Wrappers {

  datatype Option<+T> = None | Some(value: T) {

    /** The wrapped value, or `default` when there is none (the source's `x || d`
        on a possibly missing value). */
    function GetOr(default: T): T {
      match this
      case Some(v) => v
      case None => default
    }
  }
}
